=== FILE: README.md ===
# Transaction ledger core: fractions, transactions, the unique transaction list, duplicating

This project models the arithmetic and bookkeeping core of an address-book application that
records shared expenses. A transaction has:

- an amount, a description and the name of the payee;
- a set of expenses, each naming a participant and giving a positive weight;
- a timestamp.

Each participant's portion of the amount is proportional to their weight. Amounts are exact
fractions. They are read from decimal text and written back as decimal text rounded half-up. The
ledger keeps its transactions in a list that never holds two that are the same. The
`duplicateTransaction` command copies a shown transaction, applies optional edits to the copy and
adds it to the ledger.

Modules, one per file:

| Module | File | What it models |
|---|---|---|
| `Results` | `results.dfy` | `Option` and `Result`. A thrown exception becomes an `Err` value. |
| `Digits` | `digits.dfy` | Decimal digit strings, the integer reader (`new BigInteger(String)`) and its printer. |
| `FractionUtil` | `fraction_util.dfy` | `parseFraction`, `toString`, `sum`, and the finding below. Fractions are Dafny `real`s, which are exact rationals. `String.split("\\.")` is modelled with Java's rule that trailing empty pieces are dropped. |
| `Transactions` | `transactions.dfy` | Transaction, expense and person. Portions (`getPortion`, `getAllPortions`), `isPersonInvolved`, `isSameTransaction` and `equals`. |
| `UniqueTransactionList` | `unique_transaction_list.dfy` | `add`, `contains`, `setTransaction`, `remove`, both `setTransactions` and `equals`. Each operation is a function from the old contents to the new contents or an error. |
| `DuplicateTransactionCommand` | `duplicate_transaction_command.dfy` | The edit descriptor, `createEditedTransaction`, `execute` and `equals`. |

## Model

| member | source | states |
|---|---|---|
| Digits.ParseInteger | src/main/java/seedu/address/commons/util/FractionUtil.java:24 | The integer reader accepts exactly an optional sign followed by one or more digits. The sign of the result follows the sign character. |
| Digits.IntRoundTrip | src/main/java/seedu/address/commons/util/FractionUtil.java:24 | Reading the printed form of any integer gives that integer back. |
| Digits.PaddedRoundTrip | src/main/java/seedu/address/commons/util/FractionUtil.java:42 | Printing the value of a digit string and padding it with zeros to its width gives the string back. |
| FractionUtil.RemoveSpaces | src/main/java/seedu/address/commons/util/FractionUtil.java:21 | The text with every space removed contains no space and is no longer than the input. Text without spaces is left unchanged. `FractionUtil.RemoveSpacesConcat` states that everything else is kept in order. |
| FractionUtil.RemoveSpacesConcat | src/main/java/seedu/address/commons/util/FractionUtil.java:21 | Removing the spaces of a concatenation is removing them from each part and concatenating the results. With the single-character cases, this fixes the result: every character other than a space is kept, in order. |
| FractionUtil.JavaSplit | src/main/java/seedu/address/commons/util/FractionUtil.java:21 | No piece contains the separator. Text without the separator comes back whole, as the one piece `[s]`. When the text contains the separator, the last piece is never empty, because Java drops trailing empty pieces. `FractionUtil.JavaSplitJoin` states that pieces glued with points split back into themselves. |
| FractionUtil.JavaSplitTrailingSeparator | src/main/java/seedu/address/commons/util/FractionUtil.java:21 | A separator at the end of non-empty text does not change the split. The separator alone splits into no pieces. |
| FractionUtil.ParseFraction | src/main/java/seedu/address/commons/util/FractionUtil.java:20-31 | Blank text (empty once the spaces are gone) is a NumberFormatException. For every other text, `FractionUtil.ParseIgnoresSpaces` removes the spaces. Then exactly one of these applies: `FractionUtil.ParseWithoutPoint` (no point), `FractionUtil.ParseTrailingPoint` (a point at the end, which reduces to shorter text), `FractionUtil.ParseWithPoint` (one point, non-empty after it) or `FractionUtil.ParseManyPiecesFails` (two or more points, non-empty at the end). |
| FractionUtil.ParseWithoutPoint | src/main/java/seedu/address/commons/util/FractionUtil.java:21-24 | Space-free text without a point reads as the integer the reader gives, and fails exactly when the reader refuses it. |
| FractionUtil.ParseWithPoint | src/main/java/seedu/address/commons/util/FractionUtil.java:21-27 | Space-free text `a.b`, with one point and `b` non-empty, reads as the integer `a ++ b` over 10^len(b), and fails exactly when the reader refuses `a ++ b`. |
| FractionUtil.ParseIntegerLiteral | src/main/java/seedu/address/commons/util/FractionUtil.java:23-24 | Text with no point, an optional sign and at least one digit parses to its integer. |
| FractionUtil.ParseDecimalLiteral | src/main/java/seedu/address/commons/util/FractionUtil.java:25-27 | `sign int "." frac` parses to (sign)(int·10^len(frac) + frac) / 10^len(frac). |
| FractionUtil.ParseLiteral | src/main/java/seedu/address/commons/util/FractionUtil.java:20-31 | Every signed decimal literal with at least one digit, with or without a point, parses to its exact value. |
| FractionUtil.ParseIgnoresSpaces | src/main/java/seedu/address/commons/util/FractionUtil.java:21 | Parsing ignores every space character. |
| FractionUtil.ParseDropsSpace | src/main/java/seedu/address/commons/util/FractionUtil.java:21 | Deleting one space anywhere in the text does not change what it reads as, error or value. |
| FractionUtil.ParseTrailingPoint | src/main/java/seedu/address/commons/util/FractionUtil.java:21-24 | A point at the end of any non-empty space-free text is ignored, because the split drops trailing empty pieces: "5." reads as "5", "1.2." as "1.2", ".5." as ".5" and "1.." as "1.". A lone "." fails. |
| FractionUtil.ParseManyPiecesFails | src/main/java/seedu/address/commons/util/FractionUtil.java:21-29 | Three or more pieces joined by points, none holding a space and the last one non-empty ("1.2.3", "a.b.c.d"), are rejected. Their contents do not matter. |
| FractionUtil.ParsePointsOnlyFails | src/main/java/seedu/address/commons/util/FractionUtil.java:21-29 | Text made only of points (".", "..") splits into no pieces at all and is rejected. |
| FractionUtil.ParseMalformedIntegerFails | src/main/java/seedu/address/commons/util/FractionUtil.java:23-24 | Space-free text without a point that is not a signed digit string is rejected. |
| FractionUtil.ParseTrailingZero | src/main/java/seedu/address/commons/util/FractionUtil.java:25-27 | Appending a zero after the point never changes the parsed value. |
| FractionUtil.RoundHalfUp | src/main/java/seedu/address/commons/util/FractionUtil.java:42 | HALF_UP rounding: the result is within one half of its argument, and an exact tie moves away from zero. |
| FractionUtil.ToString | src/main/java/seedu/address/commons/util/FractionUtil.java:40-43 | Requires `decimalPlaces >= 0`. The function carries no ensures of its own: `FractionUtil.ToStringShape`, `FractionUtil.ToStringNearest` and `FractionUtil.ParseToString` state what its text means. |
| FractionUtil.ToStringShape | src/main/java/seedu/address/commons/util/FractionUtil.java:40-43 | The output is plain decimal text: an optional '-', at least one digit, and, when `decimalPlaces > 0`, a point followed by exactly `decimalPlaces` digits. |
| FractionUtil.ToStringNearest | src/main/java/seedu/address/commons/util/FractionUtil.java:40-43 | The output parses back to a value within half a unit in the last place of the fraction. Ties resolve away from zero. |
| FractionUtil.ParseToString | src/main/java/seedu/address/commons/util/FractionUtil.java:40-43 | The output parses back to exactly round-half-up(q·10^d) / 10^d. |
| FractionUtil.ToStringOfQuotient | src/main/java/seedu/address/commons/util/FractionUtil.java:40-43 | A fraction already at `d` decimal places prints exactly as the plain decimal of its numerator over 10^d. |
| FractionUtil.PlainStringParses | src/main/java/seedu/address/commons/util/FractionUtil.java:20-31 | The plain decimal text of n at scale d parses back to n / 10^d. |
| FractionUtil.ToStringRoundTrip | src/main/java/seedu/address/commons/util/FractionUtil.java:20-43 | Parsing a canonical decimal literal and printing it with as many places as it has gives the literal back. |
| FractionUtil.Sum | src/main/java/seedu/address/commons/util/FractionUtil.java:51-57 | The reference sum that `FractionUtil.SumList` is proved to compute. It carries no ensures of its own: `FractionUtil.SumConcat`, `FractionUtil.SumPermutation` and `FractionUtil.SumScaled` state its properties. |
| FractionUtil.SumList | src/main/java/seedu/address/commons/util/FractionUtil.java:51-57 | The loop starting from zero and adding each element computes the sum of the list. |
| FractionUtil.SumConcat | src/main/java/seedu/address/commons/util/FractionUtil.java:51-57 | The sum of a concatenation is the sum of the sums. |
| FractionUtil.SumPermutation | src/main/java/seedu/address/commons/util/FractionUtil.java:51-57 | Any reordering of the list has the same sum, so the iteration order of the set does not matter. |
| FractionUtil.SumScaled | src/main/java/seedu/address/commons/util/FractionUtil.java:51-57 | Scaling every element by k scales the sum by k. |
| FractionUtil.SignAfterPointAccepted | src/main/java/seedu/address/commons/util/FractionUtil.java:25-27 | As written, "." followed by a sign ('-' or '+') and digits is accepted as a fraction with that sign: ".-5" reads as -1/20 and ".+5" as 1/20. |
| FractionUtil.ParseFractionStrict | src/main/java/seedu/address/commons/util/FractionUtil.java:20-31 | The corrected parser never accepts what the original rejects, and agrees with it wherever it accepts. |
| FractionUtil.StrictRefusesSignAfterPoint | src/main/java/seedu/address/commons/util/FractionUtil.java:25-27 | The corrected parser rejects a sign after the point, '-' or '+'. |
| FractionUtil.StrictAcceptsLiterals | src/main/java/seedu/address/commons/util/FractionUtil.java:20-31 | The corrected parser still accepts every signed decimal literal with its exact value. |
| FractionUtil.StrictReadsLiteral | src/main/java/seedu/address/commons/util/FractionUtil.java:25-27 | Whatever two-piece text the corrected parser accepts is a signed digit string, a point and digits, and it reads with the literal's value. |
| Transactions.FindExpense | src/test/java/seedu/address/model/transaction/TransactionTest.java:112-126 | Finds the first expense naming the person. None exactly when no expense names them. |
| Transactions.IsPersonInvolved | src/test/java/seedu/address/model/transaction/TransactionTest.java:112-126 | A predicate with no ensures of its own: some expense names the person. `Transactions.InvolvedIffParticipant` relates it to getAllPortions, and `Transactions.GetPortion` to getPortion. |
| Transactions.InvolvedIffParticipant | src/test/java/seedu/address/model/transaction/TransactionTest.java:112-126 | A person is involved exactly when some expense names them, which is exactly when getAllPortions has their name. |
| Transactions.GetPortion | src/test/java/seedu/address/model/transaction/TransactionTest.java:128-151 | A portion exists exactly for involved persons. Asking for anyone else is an error. |
| Transactions.FirstShare | src/test/java/seedu/address/model/transaction/TransactionTest.java:128-151 | An involved person's portion is amount × their weight / total weight, and the total weight is positive. |
| Transactions.SinglePortion | src/test/java/seedu/address/model/transaction/TransactionTest.java:128-135 | A sole participant's portion is the whole amount, and getAllPortions maps their name to it. |
| Transactions.OneTwoThreeSplit | src/test/java/seedu/address/model/transaction/TransactionTest.java:137-151 | With weights in ratio 1:2:3, the portions are a sixth, a third and a half of the amount. |
| Transactions.TestLedgerFigures | src/test/java/seedu/address/model/transaction/TransactionTest.java:137-176 | 600 splits 100/200/300 and 1200 splits 200/400/600. |
| Transactions.GetAllPortions | src/test/java/seedu/address/model/transaction/TransactionTest.java:153-176 | The keys of the portion map are exactly the participants' names. |
| Transactions.PortionMapKeys | src/test/java/seedu/address/model/transaction/TransactionTest.java:153-176 | Building the map one expense at a time gives exactly one key per named participant. |
| Transactions.PortionMapValues | src/test/java/seedu/address/model/transaction/TransactionTest.java:153-176 | For an expense sequence without repeated names, each participant's entry is their weighted share. |
| Transactions.AllPortionsAgree | src/test/java/seedu/address/model/transaction/TransactionTest.java:128-176 | getAllPortions has an entry exactly for involved persons, and that entry equals getPortion. |
| Transactions.OneTwoThreeAllPortions | src/test/java/seedu/address/model/transaction/TransactionTest.java:163-176 | getAllPortions of a 1:2:3 ledger maps the three names to a sixth, a third and a half. |
| Transactions.SumOfShares | src/test/java/seedu/address/model/transaction/TransactionTest.java:137-176 | The shares add up to amount × (sum of weights) / total. |
| Transactions.SharesSumToAmount | src/test/java/seedu/address/model/transaction/TransactionTest.java:137-176 | The shares of a transaction with participants add up to exactly its amount. |
| Transactions.AllPortionsSumToAmount | src/test/java/seedu/address/model/transaction/TransactionTest.java:163-176 | The values of getAllPortions add up to exactly the amount. |
| Transactions.TotalWeightPositive | src/test/java/seedu/address/model/transaction/TransactionTest.java:128-151 | The total weight is non-negative, and positive when there is a participant, so the division in a share is defined. |
| Transactions.ProportionalWeights | src/test/java/seedu/address/model/transaction/TransactionTest.java:137-151 | Multiplying every weight by the same positive factor leaves every portion unchanged, including the error for outsiders. |
| Transactions.ScaledPortion | src/test/java/seedu/address/model/transaction/TransactionTest.java:137-151 | The same statement for an involved person, with the share recomputed from the scaled weights. |
| Transactions.PermutedTotal | src/test/java/seedu/address/model/transaction/TransactionTest.java:137-151 | The total weight does not depend on the order of the expenses. |
| Transactions.PermutedPortions | src/test/java/seedu/address/model/transaction/TransactionTest.java:137-151 | Reordering the expenses of a transaction changes no portion. |
| Transactions.SameSetPermuted | src/test/java/seedu/address/model/transaction/TransactionTest.java:36-67 | Two expense sets with the same members are permutations of each other, because no expense occurs twice. |
| Transactions.SameTransactionSamePortions | src/test/java/seedu/address/model/transaction/TransactionTest.java:36-67 | Two transactions that are the same transaction give every person the same portion, and getAllPortions gives the same map. |
| Transactions.SameTransactionFields | src/test/java/seedu/address/model/transaction/TransactionTest.java:36-67 | isSameTransaction holds for the transaction itself and fails for null. Changing a single field keeps it exactly when that field is unchanged, with expenses compared as sets. |
| Transactions.SameTransactionEquivalence | src/test/java/seedu/address/model/transaction/TransactionTest.java:36-67 | isSameTransaction is symmetric and transitive. |
| Transactions.ReorderedSame | src/test/java/seedu/address/model/transaction/TransactionTest.java:36-67 | A transaction is the same as itself with its expenses reordered. |
| Transactions.IsSameTransaction | src/test/java/seedu/address/model/transaction/TransactionTest.java:36-67 | A predicate with no ensures of its own: the other transaction is present and agrees on every field, with expenses compared as sets. `Transactions.SameTransactionFields` and `Transactions.SameTransactionEquivalence` state its properties. |
| Transactions.Equals | src/test/java/seedu/address/model/transaction/TransactionTest.java:69-101 | A predicate with no ensures of its own: the object is a transaction that agrees on every field. `Transactions.EqualsAgreesWithSame` relates it to isSameTransaction. |
| Transactions.EqualsAgreesWithSame | src/test/java/seedu/address/model/transaction/TransactionTest.java:69-101 | equals on a transaction agrees with isSameTransaction. It fails for null and for another type, and holds for the transaction itself. |
| UniqueTransactionList.IndexOf | src/test/java/seedu/address/model/transaction/UniqueTransactionListTest.java:54-59 | The first position holding the same transaction. None exactly when the list does not contain it. |
| UniqueTransactionList.Contains | src/test/java/seedu/address/model/transaction/UniqueTransactionListTest.java:36-40 | A predicate with no ensures of its own: some slot holds the same transaction. `UniqueTransactionList.AddThenContains`, `UniqueTransactionList.IndexOf` and `UniqueTransactionList.RemoveDeletes` state how the operations change it. |
| UniqueTransactionList.Add | src/test/java/seedu/address/model/transaction/UniqueTransactionListTest.java:36-40 | add fails exactly when the list already contains the transaction, and then as a duplicate. This refusal is assumed, not shown by the tests (see Left out). On success add appends the transaction after all existing ones and keeps the list free of repeats. |
| UniqueTransactionList.AddThenContains | src/test/java/seedu/address/model/transaction/UniqueTransactionListTest.java:36-40 | After add(t), the list contains t. |
| UniqueTransactionList.AddKeeps | src/test/java/seedu/address/model/transaction/UniqueTransactionListTest.java:36-40 | add never loses a transaction that was already there. |
| UniqueTransactionList.AddToEmpty | src/test/java/seedu/address/model/transaction/UniqueTransactionListTest.java:36-40 | Adding to the empty list gives the one-element list, which contains it. |
| UniqueTransactionList.SetTransaction | src/test/java/seedu/address/model/transaction/UniqueTransactionListTest.java:54-77 | It fails with not-found exactly when the target is absent, as the test at lines 54-59 shows. It fails as a duplicate exactly when a different edited transaction is already present. That second refusal is assumed, not shown (see Left out). Otherwise it replaces the target's slot, keeps the length and keeps the list free of repeats. |
| UniqueTransactionList.SetMissingFails | src/test/java/seedu/address/model/transaction/UniqueTransactionListTest.java:54-59 | Setting a transaction that is not in the list fails with not-found. |
| UniqueTransactionList.SetSameKeepsList | src/test/java/seedu/address/model/transaction/UniqueTransactionListTest.java:61-68 | Replacing a transaction by itself succeeds and gives a list equal to the original. |
| UniqueTransactionList.SetReplacesSlot | src/test/java/seedu/address/model/transaction/UniqueTransactionListTest.java:61-77 | An allowed replacement puts the edited transaction in the target's first slot. |
| UniqueTransactionList.SetOnSingleton | src/test/java/seedu/address/model/transaction/UniqueTransactionListTest.java:61-77 | On [a], set(a, a) gives a list equal to [a] and set(a, b) gives a list equal to [b]. |
| UniqueTransactionList.Remove | src/test/java/seedu/address/model/transaction/UniqueTransactionListTest.java:84-95 | remove fails with not-found exactly when the transaction is absent. Otherwise it deletes one matching slot. |
| UniqueTransactionList.Delete | src/test/java/seedu/address/model/transaction/UniqueTransactionListTest.java:89-95 | Deleting a position keeps the elements before it in place and shifts the ones after it down by one. |
| UniqueTransactionList.RemoveDeletes | src/test/java/seedu/address/model/transaction/UniqueTransactionListTest.java:89-95 | Removing from a repeat-free list succeeds. Afterwards the list no longer contains the transaction, stays free of repeats and keeps every other transaction. |
| UniqueTransactionList.RemoveOnSingleton | src/test/java/seedu/address/model/transaction/UniqueTransactionListTest.java:84-95 | Removing from the empty list fails, and removing a from [a] gives []. |
| UniqueTransactionList.SetTransactions | src/test/java/seedu/address/model/transaction/UniqueTransactionListTest.java:111-119 | Replacing the contents by a plain list succeeds exactly when that list has no repeats, and the contents become that list. The refusal of a list with repeats is assumed, not shown (see Left out). |
| UniqueTransactionList.ReplaceContents | src/test/java/seedu/address/model/transaction/UniqueTransactionListTest.java:102-109 | Replacing the contents by another unique list keeps the invariant and that list's length. |
| UniqueTransactionList.SetTransactionsReplaces | src/test/java/seedu/address/model/transaction/UniqueTransactionListTest.java:102-119 | The old contents do not matter, and both forms of setTransactions give a list equal to the replacement. |
| UniqueTransactionList.ReplaceSingleton | src/test/java/seedu/address/model/transaction/UniqueTransactionListTest.java:102-119 | Replacing [a] by [b] gives a list equal to [b]. |
| UniqueTransactionList.ListEqualsEquivalence | src/test/java/seedu/address/model/transaction/UniqueTransactionListTest.java:127-136 | List equality is reflexive and symmetric, and fails for an object of another class. |
| UniqueTransactionList.EqualListsContainAlike | src/test/java/seedu/address/model/transaction/UniqueTransactionListTest.java:127-136 | Equal lists contain the same transactions. |
| UniqueTransactionList.ListEquals | src/test/java/seedu/address/model/transaction/UniqueTransactionListTest.java:127-136 | A predicate with no ensures of its own: the other object is a list of the same length whose transactions are equal position by position. `UniqueTransactionList.ListEqualsEquivalence` and `UniqueTransactionList.EqualListsContainAlike` state its properties. |
| DuplicateTransactionCommand.Override | src/main/java/seedu/address/logic/commands/DuplicateTransactionCommand.java:68-70 | A field that is present in the descriptor replaces the transaction's own value. An absent field keeps it. |
| DuplicateTransactionCommand.CreateEdited | src/main/java/seedu/address/logic/commands/DuplicateTransactionCommand.java:68-70 | Every field the descriptor sets takes the descriptor's value. Every field it leaves unset is copied from the original. |
| DuplicateTransactionCommand.NoEditsCopies | src/main/java/seedu/address/logic/commands/DuplicateTransactionCommand.java:68-70 | With no edits, the copy equals the original. |
| DuplicateTransactionCommand.EditIdempotent | src/main/java/seedu/address/logic/commands/DuplicateTransactionCommand.java:68-70 | Applying the same edits twice is the same as applying them once. |
| DuplicateTransactionCommand.EditedFieldsOnly | src/main/java/seedu/address/logic/commands/DuplicateTransactionCommand.java:68-70 | The copy differs from the original only in fields the descriptor sets, and then takes the descriptor's value. |
| DuplicateTransactionCommand.DescriptorOf | src/test/java/seedu/address/testutil/EditTransactionDescriptorBuilder.java:32-39 | The descriptor built from a transaction sets all five fields. |
| DuplicateTransactionCommand.DescriptorOfRebuilds | src/test/java/seedu/address/testutil/EditTransactionDescriptorBuilder.java:32-39 | Applying a transaction's full descriptor to any transaction rebuilds the first transaction. |
| DuplicateTransactionCommand.Execute | src/main/java/seedu/address/logic/commands/DuplicateTransactionCommand.java:60-80 | An invalid index error occurs exactly when the index is outside the shown list. A not-relevant error occurs exactly when the index is valid and the edited copy is not relevant. On success the copy is appended to the ledger and the whole ledger is shown. |
| DuplicateTransactionCommand.ExecuteSucceeds | src/main/java/seedu/address/logic/commands/DuplicateTransactionCommand.java:60-80 | execute succeeds exactly when the index is shown, the copy is relevant and the ledger does not yet contain the copy. Any failure from the list is a duplicate. The list's refusal is assumed, and it escapes from execute as an unchecked exception (see Left out). |
| DuplicateTransactionCommand.ExecuteAddsCopy | src/main/java/seedu/address/logic/commands/DuplicateTransactionCommand.java:64-77 | A successful duplicate grows the ledger by one and leaves the earlier transactions in place. The ledger stays free of repeats and contains the copy, and the original is still shown. |
| DuplicateTransactionCommand.UneditedDuplicateRefused | src/main/java/seedu/address/logic/commands/DuplicateTransactionCommand.java:68-76 | A command whose descriptor sets no field, not even the timestamp, makes a copy that is the original itself. If that transaction is relevant and already in the ledger, the command fails as a duplicate, which escapes from execute as an unchecked exception. This rests on the assumed refusal of add (see Left out). |
| DuplicateTransactionCommand.CommandEqualsEquivalence | src/main/java/seedu/address/logic/commands/DuplicateTransactionCommand.java:82-96 | Command equality is reflexive, symmetric and transitive, and fails for an object of another class. |
| DuplicateTransactionCommand.EqualCommandsCopyAlike | src/main/java/seedu/address/logic/commands/DuplicateTransactionCommand.java:82-96 | Identical commands are equal, and equal commands build the same copy from any transaction. |
| DuplicateTransactionCommand.DescriptorEquals | src/main/java/seedu/address/logic/commands/DuplicateTransactionCommand.java:94-95 | A predicate with no ensures of its own: all five fields are equal, with portions compared as sets. `DuplicateTransactionCommand.EqualCommandsCopyAlike` states what equal descriptors share. |
| DuplicateTransactionCommand.CommandEquals | src/main/java/seedu/address/logic/commands/DuplicateTransactionCommand.java:82-96 | A predicate with no ensures of its own: the other object is a duplicate command with an equal index and an equal descriptor. `DuplicateTransactionCommand.CommandEqualsEquivalence` states its properties. |

## Left out

- The user interface (the transaction list panel), the observable and unmodifiable list views, `hashCode`, `toString` and the message strings are presentation only. They are not modelled.
- Null arguments and the `NullPointerException` tests are not modelled. Dafny values are never null, except for the `null` argument of `isSameTransaction` and `equals`, which is modelled as `None` or `NullObj`.
- The timestamp defaults to the current time when the command does not set one (DuplicateTransactionCommand.java:22). The model does not read a clock. The timestamp is an optional field of the descriptor, and an unset one keeps the original's timestamp.
- The source text of Transaction.java is not part of this model. The class is modelled from the behaviour TransactionTest pins down. `isRelevant` is left out and is a parameter of `Execute`.
- `Model.addTransaction` and the filtered list are not part of this model. Adding is modelled as `UniqueTransactionList.add`, so a copy that repeats a transaction is refused. The filtered list is modelled as the shown sequence, which becomes the whole ledger on success.
- `BigFraction` and `BigDecimal` internals, such as normal form and scale bookkeeping, are replaced by exact rationals (`real`). The integer reader accepts only ASCII digits. Java also accepts other Unicode digit characters.
- Names are plain strings, with no validation or normalisation. Of a person, only the name is modelled.
- The source text of UniqueTransactionList.java is not part of this model. The class is modelled from the behaviour UniqueTransactionListTest pins down. The tests show only the not-found refusals. The duplicate refusals below are assumed from the class's name. In Java such a refusal would be an unchecked exception, and `execute` does not catch it.
- UniqueTransactionList.Add: the refusal of a transaction that is already in the list is assumed, not shown.
- UniqueTransactionList.SetTransaction: the refusal of an edited transaction that repeats another one is assumed, not shown.
- UniqueTransactionList.SetTransactions: the refusal of a replacement list with repeats is assumed, not shown.
- DuplicateTransactionCommand.ExecuteSucceeds: its failure case for a copy already in the ledger rests on the assumed refusal of add. In Java it would surface from `execute` as an uncaught runtime exception, not as a CommandException. The model names it `UncheckedListException`.
- DuplicateTransactionCommand.UneditedDuplicateRefused: rests on the same assumed refusal, and in Java it would likewise surface as an uncaught runtime exception from `execute`. It is about a descriptor with no timestamp, which the model reads as keeping the original's timestamp. The documented default (DuplicateTransactionCommand.java:22, :29-30) gives the copy the current time instead. Then an unedited `duplicateTransaction 1` makes a different transaction, which add accepts. That clock-dependent case is outside the model.
- The expense set is a sequence in its iteration order, with at most one expense per name (the type `Transactions.ExpenseList`). Equality compares it as a set. A Java set holding two expenses with the same name but different weights is outside the model.
- FractionUtil.ToString: a negative `decimalPlaces` is excluded by a precondition. In Java the `assert` rejects it only when assertions are enabled (`-ea`). Without them, `bigDecimalValue` rounds to a negative scale, to tens or hundreds, and the model does not cover that case.
- Transactions.GetPortion: the function's own contract states only when a portion exists. Its value is stated by `Transactions.FirstShare` and the lemmas after it.
- These behaviours follow the code, and the model keeps them:
  - "5." and "1.2." are accepted, because the split drops trailing empty pieces.
  - Zero printed with two places is "0.00".
  - HALF_UP rounds ties away from zero, also for negative values.

## Findings

| source | as written | input that shows it | evidently intended | confidence | as-written member | corrected member |
|---|---|---|---|---|---|---|
| src/main/java/seedu/address/commons/util/FractionUtil.java:25-27 | The integer and fraction pieces are concatenated before the integer reader sees them. When the integer piece is empty, a sign in the fraction piece becomes the sign of the whole number. | ".-5" parses to -1/20 and ".+5" to 1/20 instead of failing | a sign is only allowed before the point; ".-5" and ".+5" raise NumberFormatException | medium, not executed | FractionUtil.SignAfterPointAccepted | FractionUtil.ParseFractionStrict |

=== FILE: digits.dfy ===
/**
 * Decimal digit strings and the arbitrary-precision integer reader that the fraction parser relies on
 * (the string constructor of java.math.BigInteger, restricted to ASCII digits).
 */
module Digits {
  import opened Results

  predicate IsDigit(c: char) {
    '0' <= c <= '9'
  }

  predicate AllDigits(s: string) {
    forall i :: 0 <= i < |s| ==> IsDigit(s[i])
  }

  function DigitValue(c: char): (d: nat)
    requires IsDigit(c)
    ensures d < 10
  {
    (c as int) - ('0' as int)
  }

  function DigitChar(d: nat): (c: char)
    requires d < 10
    ensures IsDigit(c) && DigitValue(c) == d
  {
    (('0' as int) + d) as char
  }

  function Pow10(n: nat): (p: nat)
    ensures p >= 1
  {
    if n == 0 then 1 else 10 * Pow10(n - 1)
  }

  /** The natural number a string of digits denotes, read most significant digit first. */
  function Value(s: string): (v: nat)
    requires AllDigits(s)
  {
    if s == [] then 0 else 10 * Value(s[..|s| - 1]) + DigitValue(s[|s| - 1])
  }

  /** A digit string without redundant leading zeros: "0", or one that starts with 1-9. */
  predicate Canonical(s: string) {
    |s| >= 1 && AllDigits(s) && (s[0] == '0' ==> |s| == 1)
  }

  /** The canonical decimal digits of `n` (what BigInteger.toString prints for a non-negative value). */
  function NatToDigits(n: nat): (s: string)
    ensures Canonical(s)
    ensures Value(s) == n
  {
    if n < 10 then [DigitChar(n)]
    else
      var prefix := NatToDigits(n / 10);
      var s := prefix + [DigitChar(n % 10)];
      assert s[..|s| - 1] == prefix;
      s
  }

  function Zeros(n: nat): (s: string)
    ensures |s| == n && AllDigits(s)
    ensures forall i :: 0 <= i < n ==> s[i] == '0'
  {
    seq(n, _ => '0')
  }

  /** `s` left-padded with zeros to at least `width` characters. */
  function PadLeft(s: string, width: nat): (r: string)
    ensures |r| == if |s| < width then width else |s|
    ensures forall i :: 0 <= i < |r| - |s| ==> r[i] == '0'
  {
    if |s| < width then Zeros(width - |s|) + s else s
  }

  /** An optional '+' or '-' followed by one or more digits: the strings BigInteger(String) accepts. */
  predicate SignedDigits(s: string) {
    if |s| > 0 && (s[0] == '-' || s[0] == '+') then |s| > 1 && AllDigits(s[1..])
    else |s| > 0 && AllDigits(s)
  }

  /**
   * The integer reader: an optional sign followed by at least one digit; anything else is a
   * NumberFormatException, modelled as `None`.
   */
  function ParseInteger(s: string): (r: Option<int>)
    ensures r.Some? <==> SignedDigits(s)
    ensures r.Some? && |s| > 0 && s[0] == '-' ==> r.value <= 0
    ensures r.Some? && !(|s| > 0 && s[0] == '-') ==> r.value >= 0
  {
    if |s| > 0 && (s[0] == '-' || s[0] == '+') then
      if |s| > 1 && AllDigits(s[1..]) then
        Some(if s[0] == '-' then -(Value(s[1..]) as int) else Value(s[1..]))
      else None
    else if |s| > 0 && AllDigits(s) then Some(Value(s))
    else None
  }

  /** The decimal rendering of an integer, with '-' for negatives and no '+' (BigInteger.toString). */
  function IntToString(n: int): string {
    if n < 0 then "-" + NatToDigits(-n) else NatToDigits(n)
  }

  // ---------------------------------------------------------------------------------------------
  // Lemmas

  lemma AllDigitsConcat(a: string, b: string)
    requires AllDigits(a) && AllDigits(b)
    ensures AllDigits(a + b)
  {
    var ab := a + b;
    forall i | 0 <= i < |ab| ensures IsDigit(ab[i]) {
      if i < |a| { assert ab[i] == a[i]; } else { assert ab[i] == b[i - |a|]; }
    }
  }

  lemma {:induction false} ValueConcat(a: string, b: string)
    requires AllDigits(a) && AllDigits(b)
    ensures AllDigits(a + b)
    ensures Value(a + b) == Value(a) * Pow10(|b|) + Value(b)
    decreases |b|
  {
    AllDigitsConcat(a, b);
    if b == [] {
      assert a + b == a;
    } else {
      var b' := b[..|b| - 1];
      var ab := a + b;
      assert ab[..|ab| - 1] == a + b';
      ValueConcat(a, b');
      var d := DigitValue(b[|b| - 1]);
      assert ab[|ab| - 1] == b[|b| - 1];
      assert Value(b) == 10 * Value(b') + d;
      ShiftDigit(Value(a), Value(b'), Pow10(|b'|), d, Value(a + b'), Value(ab));
    }
  }

  /** Appending one digit to both sides of `v == a * p + b`. */
  lemma ShiftDigit(a: int, b: int, p: int, d: int, v: int, v': int)
    requires v == a * p + b && v' == 10 * v + d
    ensures v' == a * (10 * p) + (10 * b + d)
  {
  }

  lemma {:induction false} ValueZeros(n: nat)
    ensures Value(Zeros(n)) == 0
  {
    if n > 0 {
      assert Zeros(n)[..n - 1] == Zeros(n - 1);
      ValueZeros(n - 1);
    }
  }

  /** Leading zeros never change the value. */
  lemma ValueLeadingZeros(n: nat, s: string)
    requires AllDigits(s)
    ensures AllDigits(Zeros(n) + s)
    ensures Value(Zeros(n) + s) == Value(s)
  {
    ValueConcat(Zeros(n), s);
    ValueZeros(n);
  }

  /** A digit string whose first digit is not zero is at least 10^(length-1). */
  lemma {:induction false} LeadingDigitBound(s: string)
    requires AllDigits(s) && |s| >= 1 && s[0] != '0'
    ensures Value(s) >= Pow10(|s| - 1)
  {
    if |s| > 1 {
      var s' := s[..|s| - 1];
      assert s'[0] == s[0];
      LeadingDigitBound(s');
    } else {
      assert DigitValue(s[0]) >= 1;
    }
  }

  /** Reading and re-printing a canonical digit string gives it back. */
  lemma {:induction false} CanonicalRoundTrip(s: string)
    requires Canonical(s)
    ensures NatToDigits(Value(s)) == s
  {
    if |s| == 1 {
      assert Value(s) == DigitValue(s[0]);
      assert [DigitChar(DigitValue(s[0]))] == s;
    } else {
      var s' := s[..|s| - 1];
      assert s'[0] == s[0];
      LeadingDigitBound(s');
      CanonicalRoundTrip(s');
      var v := Value(s);
      var d := DigitValue(s[|s| - 1]);
      assert v == 10 * Value(s') + d;
      assert v / 10 == Value(s') && v % 10 == d;
      assert DigitChar(d) == s[|s| - 1];
      assert s == s' + [s[|s| - 1]];
    }
  }

  /** Re-printing the value of any digit string and padding it to the same width gives it back. */
  lemma {:induction false} PaddedRoundTrip(s: string)
    requires AllDigits(s) && |s| >= 1
    ensures PadLeft(NatToDigits(Value(s)), |s|) == s
    decreases |s|
  {
    if s[0] != '0' || |s| == 1 {
      CanonicalRoundTrip(s);
    } else {
      var t := s[1..];
      assert s == ['0'] + t;
      ValueConcat(['0'], t);
      assert Value(['0']) == 0 by { assert ['0'][..0] == []; }
      assert Value(s) == Value(t);
      PaddedRoundTrip(t);
      var x := NatToDigits(Value(t));
      assert |x| <= |t|;
      assert PadLeft(x, |s|) == ['0'] + PadLeft(x, |t|);
    }
  }

  /** The integer reader inverts the integer printer. */
  lemma IntRoundTrip(n: int)
    ensures ParseInteger(IntToString(n)) == Some(n)
  {
    if n < 0 {
      var s := IntToString(n);
      assert s[1..] == NatToDigits(-n);
    }
  }
}

=== FILE: duplicate_transaction_command.dfy ===
/**
 * The duplicateTransaction command: copy a transaction of the shown list, apply optional edits
 * to the copy, and add the copy to the ledger.
 *
 * The model holds the ledger's transactions and the list currently shown to the user (a
 * filtered view of them). Transaction.isRelevant is a parameter of the command.
 */
module DuplicateTransactionCommand {
  import opened Results
  import opened Transactions
  import opened UniqueTransactionList

  /** EditTransactionDescriptor: each field, when present, replaces the transaction's own. */
  datatype Descriptor = Descriptor(
    amount: Option<real>,
    description: Option<string>,
    payeeName: Option<Name>,
    portions: Option<ExpenseList>,
    timestamp: Option<Timestamp>)

  /** The command: a zero-based index into the shown list and the edits to apply to the copy. */
  datatype Command = Command(index: nat, descriptor: Descriptor)

  /** Java's `Object` as the argument of DuplicateTransactionCommand.equals. */
  datatype CommandObj = CommandObj(command: Command) | OtherCommandObj

  /** The part of the model the command reads and changes. */
  datatype Model = Model(transactions: seq<Transaction>, shown: seq<Transaction>)

  /**
   * How execute ends without a result: one of the two CommandExceptions it throws, or a refusal
   * of the ledger itself, which execute does not catch and which therefore leaves it as an
   * unchecked exception.
   */
  datatype CommandError =
    | InvalidTransactionIndex
    | TransactionNotRelevant
    | UncheckedListException(error: ListError)

  /** The descriptor that sets no field. */
  const NoEdits := Descriptor(None, None, None, None, None)

  /** The value of an optional field of the descriptor, or the transaction's own. */
  function Override<T>(field: Option<T>, own: T): (r: T)
    ensures field.Some? ==> r == field.value
    ensures field.None? ==> r == own
  {
    if field.Some? then field.value else own
  }

  /** EditTransactionCommand.createEditedTransaction: the transaction with the descriptor's fields in place of its own. */
  function CreateEdited(t: Transaction, d: Descriptor): (r: Transaction)
    ensures d.amount.None? ==> r.amount == t.amount
    ensures d.description.None? ==> r.description == t.description
    ensures d.payeeName.None? ==> r.payeeName == t.payeeName
    ensures d.portions.None? ==> r.expenses == t.expenses
    ensures d.timestamp.None? ==> r.timestamp == t.timestamp
    ensures d.amount.Some? ==> r.amount == d.amount.value
    ensures d.description.Some? ==> r.description == d.description.value
    ensures d.payeeName.Some? ==> r.payeeName == d.payeeName.value
    ensures d.portions.Some? ==> r.expenses == d.portions.value
    ensures d.timestamp.Some? ==> r.timestamp == d.timestamp.value
  {
    Transaction(
      Override(d.amount, t.amount),
      Override(d.description, t.description),
      Override(d.payeeName, t.payeeName),
      Override(d.portions, t.expenses),
      Override(d.timestamp, t.timestamp))
  }

  /** The descriptor that sets every field to those of `t` (EditTransactionDescriptorBuilder(Transaction)). */
  function DescriptorOf(t: Transaction): (d: Descriptor)
    ensures d.amount.Some? && d.description.Some? && d.payeeName.Some?
    ensures d.portions.Some? && d.timestamp.Some?
  {
    Descriptor(Some(t.amount), Some(t.description), Some(t.payeeName), Some(t.expenses), Some(t.timestamp))
  }

  /**
   * DuplicateTransactionCommand.execute, in the order of its checks: the index must fall inside
   * the shown list; the edited copy must be relevant; the ledger must accept the copy. On success
   * the copy is appended and every transaction is shown.
   */
  function Execute(cmd: Command, model: Model, isRelevant: Transaction -> bool): (r: Result<Model, CommandError>)
    ensures r == Err(InvalidTransactionIndex) <==> cmd.index >= |model.shown|
    ensures r == Err(TransactionNotRelevant) <==>
      cmd.index < |model.shown| && !isRelevant(CreateEdited(model.shown[cmd.index], cmd.descriptor))
    ensures r.Ok? ==> cmd.index < |model.shown| && r.value.shown == r.value.transactions
    ensures r.Ok? ==> r.value.transactions == model.transactions + [CreateEdited(model.shown[cmd.index], cmd.descriptor)]
  {
    if cmd.index >= |model.shown| then Err(InvalidTransactionIndex)
    else
      var copy := CreateEdited(model.shown[cmd.index], cmd.descriptor);
      if !isRelevant(copy) then Err(TransactionNotRelevant)
      else
        match Add(model.transactions, copy)
        case Err(e) => Err(UncheckedListException(e))
        case Ok(transactions) => Ok(Model(transactions, transactions))
  }

  /** EditTransactionDescriptor.equals: equal fields, with the portions compared as sets. */
  predicate DescriptorEquals(a: Descriptor, b: Descriptor) {
    a.amount == b.amount && a.description == b.description && a.payeeName == b.payeeName
    && a.timestamp == b.timestamp
    && a.portions.Some? == b.portions.Some?
    && (a.portions.Some? ==> (set e | e in a.portions.value) == (set e | e in b.portions.value))
  }

  /** DuplicateTransactionCommand.equals: another duplicate command with an equal index and descriptor. */
  predicate CommandEquals(c: Command, other: CommandObj) {
    other.CommandObj? && c.index == other.command.index && DescriptorEquals(c.descriptor, other.command.descriptor)
  }

  // ---------------------------------------------------------------------------------------------
  // Lemmas: the edited copy

  /** An edit with no fields set copies the transaction unchanged. */
  lemma NoEditsCopies(t: Transaction)
    ensures CreateEdited(t, NoEdits) == t
  {
  }

  /** A descriptor that sets every field produces the transaction it was built from, whatever it edits. */
  lemma DescriptorOfRebuilds(t: Transaction, u: Transaction)
    ensures CreateEdited(u, DescriptorOf(t)) == t
  {
  }

  /** Applying the same edits twice is applying them once. */
  lemma EditIdempotent(t: Transaction, d: Descriptor)
    ensures CreateEdited(CreateEdited(t, d), d) == CreateEdited(t, d)
  {
  }

  /** The copy differs from the original only in the fields the descriptor sets. */
  lemma EditedFieldsOnly(t: Transaction, d: Descriptor)
    ensures var r := CreateEdited(t, d);
      (r.amount != t.amount ==> d.amount == Some(r.amount))
      && (r.description != t.description ==> d.description == Some(r.description))
      && (r.payeeName != t.payeeName ==> d.payeeName == Some(r.payeeName))
      && (r.expenses != t.expenses ==> d.portions == Some(r.expenses))
      && (r.timestamp != t.timestamp ==> d.timestamp == Some(r.timestamp))
  {
  }

  // ---------------------------------------------------------------------------------------------
  // Lemmas: execute

  /** The command succeeds exactly when the index is shown, the copy is relevant and not in the ledger yet. */
  lemma ExecuteSucceeds(cmd: Command, model: Model, isRelevant: Transaction -> bool)
    ensures Execute(cmd, model, isRelevant).Ok? <==>
      cmd.index < |model.shown|
      && isRelevant(CreateEdited(model.shown[cmd.index], cmd.descriptor))
      && !Contains(model.transactions, CreateEdited(model.shown[cmd.index], cmd.descriptor))
    ensures Execute(cmd, model, isRelevant).Err? && Execute(cmd, model, isRelevant).error.UncheckedListException? ==>
      Execute(cmd, model, isRelevant).error.error == DuplicateTransaction
  {
  }

  /**
   * A successful duplicate adds one transaction, the edited copy, after all the existing ones,
   * keeps the ledger free of repeats, and leaves the original in the ledger and on show.
   */
  lemma ExecuteAddsCopy(cmd: Command, model: Model, isRelevant: Transaction -> bool)
    requires Unique(model.transactions)
    requires forall i :: 0 <= i < |model.shown| ==> model.shown[i] in model.transactions
    requires Execute(cmd, model, isRelevant).Ok?
    ensures var after := Execute(cmd, model, isRelevant).value;
      |after.transactions| == |model.transactions| + 1
      && Unique(after.transactions)
      && Contains(after.transactions, CreateEdited(model.shown[cmd.index], cmd.descriptor))
      && model.shown[cmd.index] in after.shown
      && forall i :: 0 <= i < |model.transactions| ==> after.transactions[i] == model.transactions[i]
  {
    var copy := CreateEdited(model.shown[cmd.index], cmd.descriptor);
    var after := Execute(cmd, model, isRelevant).value;
    assert after.transactions[|model.transactions|] == copy;
    var original := model.shown[cmd.index];
    assert original in model.transactions;
    var k :| 0 <= k < |model.transactions| && model.transactions[k] == original;
    assert after.shown[k] == original;
  }

  /** Duplicating without edits a transaction that is in the ledger is refused as a repeat. */
  lemma UneditedDuplicateRefused(cmd: Command, model: Model, isRelevant: Transaction -> bool)
    requires cmd.descriptor == NoEdits
    requires cmd.index < |model.shown| && model.shown[cmd.index] in model.transactions
    requires isRelevant(model.shown[cmd.index])
    ensures Execute(cmd, model, isRelevant) == Err(UncheckedListException(DuplicateTransaction))
  {
    var original := model.shown[cmd.index];
    var k :| 0 <= k < |model.transactions| && model.transactions[k] == original;
    assert SameFields(model.transactions[k], original);
  }

  // ---------------------------------------------------------------------------------------------
  // Lemmas: equals

  /** Command equality is an equivalence relation and is false for an object of another class. */
  lemma CommandEqualsEquivalence(a: Command, b: Command, c: Command)
    ensures CommandEquals(a, CommandObj(a))
    ensures CommandEquals(a, CommandObj(b)) ==> CommandEquals(b, CommandObj(a))
    ensures CommandEquals(a, CommandObj(b)) && CommandEquals(b, CommandObj(c)) ==> CommandEquals(a, CommandObj(c))
    ensures !CommandEquals(a, OtherCommandObj)
  {
  }

  /** Commands with the same index and descriptor are equal, and equal commands build the same copy. */
  lemma EqualCommandsCopyAlike(a: Command, b: Command, t: Transaction)
    ensures a == b ==> CommandEquals(a, CommandObj(b))
    ensures CommandEquals(a, CommandObj(b)) ==>
      a.index == b.index && SameFields(CreateEdited(t, a.descriptor), CreateEdited(t, b.descriptor))
  {
  }
}

=== FILE: fraction_util.dfy ===
/**
 * Exact decimal parsing, fixed-point rendering and summation of fractions (FractionUtil).
 * A fraction is a Dafny `real`, which is exact rational arithmetic.
 */
module FractionUtil {
  import opened Results
  import opened Digits

  /** The only failure of `ParseFraction`: Java's NumberFormatException. */
  datatype ParseError = NumberFormatException

  function Abs(x: real): (a: real)
    ensures a >= 0.0 && (a == x || a == -x)
  {
    if x < 0.0 then -x else x
  }

  // ---------------------------------------------------------------------------------------------
  // String helpers with Java's semantics

  /** `s.replace(" ", "")`: every ASCII space dropped, everything else kept in order. */
  function RemoveSpaces(s: string): (r: string)
    ensures ' ' !in r
    ensures |r| <= |s|
    ensures ' ' !in s ==> r == s
  {
    if s == [] then []
    else if s[|s| - 1] == ' ' then RemoveSpaces(s[..|s| - 1])
    else
      assert s == s[..|s| - 1] + [s[|s| - 1]];
      RemoveSpaces(s[..|s| - 1]) + [s[|s| - 1]]
  }

  /** Every piece of `s` between occurrences of `sep`, empty pieces included. */
  function SplitAll(s: string, sep: char): (parts: seq<string>)
    ensures |parts| >= 1
    ensures forall i :: 0 <= i < |parts| ==> sep !in parts[i]
  {
    if s == [] then [[]]
    else
      var init := SplitAll(s[..|s| - 1], sep);
      var c := s[|s| - 1];
      if c == sep then init + [[]]
      else init[..|init| - 1] + [init[|init| - 1] + [c]]
  }

  /** The pieces glued back together with `sep` between neighbours. */
  function Join(parts: seq<string>, sep: char): string
    requires |parts| >= 1
  {
    if |parts| == 1 then parts[0]
    else Join(parts[..|parts| - 1], sep) + [sep] + parts[|parts| - 1]
  }

  /** The longest prefix of `parts` that does not end in an empty string. */
  function DropTrailingEmpty(parts: seq<string>): (r: seq<string>)
    ensures r <= parts
    ensures r == [] || r[|r| - 1] != []
    ensures forall i :: |r| <= i < |parts| ==> parts[i] == []
  {
    if parts == [] || parts[|parts| - 1] != [] then parts
    else DropTrailingEmpty(parts[..|parts| - 1])
  }

  /**
   * `s.split(regex-for-sep)` with limit 0: a string without `sep` is returned whole (so "" gives [""]);
   * otherwise it is cut at every `sep` and trailing empty pieces are discarded.
   */
  function JavaSplit(s: string, sep: char): (r: seq<string>)
    ensures forall i :: 0 <= i < |r| ==> sep !in r[i]
    ensures sep in s ==> r == [] || r[|r| - 1] != []
    ensures sep !in s ==> r == [s]
  {
    if sep in s then DropTrailingEmpty(SplitAll(s, sep)) else [s]
  }

  // ---------------------------------------------------------------------------------------------
  // parseFraction

  /**
   * FractionUtil.parseFraction: drop spaces, split on '.', read one piece as an integer, or two
   * pieces `a`, `b` as the integer `a ++ b` over 10^|b|; any other number of pieces, or an integer
   * the reader refuses, is a NumberFormatException.
   */
  function ParseFraction(s: string): (r: Result<real, ParseError>)
    ensures RemoveSpaces(s) == [] ==> r == Err(NumberFormatException)
  {
    ReadPieces(JavaSplit(RemoveSpaces(s), '.'))
  }

  /** The reading of the pieces around the points, as the switch on their number does it. */
  function ReadPieces(parts: seq<string>): Result<real, ParseError> {
    if |parts| == 1 then
      match ParseInteger(parts[0])
      case Some(n) => Ok(n as real)
      case None => Err(NumberFormatException)
    else if |parts| == 2 then
      match ParseInteger(parts[0] + parts[1])
      case Some(n) => Ok(n as real / Pow10(|parts[1]|) as real)
      case None => Err(NumberFormatException)
    else Err(NumberFormatException)
  }

  /** The signs a decimal literal may start with. */
  datatype Sign = Unsigned | Plus | Minus {
    function Text(): string {
      match this
      case Unsigned => ""
      case Plus => "+"
      case Minus => "-"
    }
  }

  /** The exact value of the decimal literal `sign intPart . fracPart`, computed place by place. */
  function LiteralValue(sign: Sign, intPart: string, fracPart: string): real
    requires AllDigits(intPart) && AllDigits(fracPart)
  {
    var magnitude := Value(intPart) as real + Value(fracPart) as real / Pow10(|fracPart|) as real;
    if sign == Minus then -magnitude else magnitude
  }

  /** The text of the decimal literal `sign intPart . fracPart`, without the point when there is no fractional part. */
  function Literal(sign: Sign, intPart: string, fracPart: string): string {
    sign.Text() + intPart + (if fracPart == [] then "" else "." + fracPart)
  }

  // ---------------------------------------------------------------------------------------------
  // toString

  /** 10^d as a real: the factor that moves `d` fractional digits in front of the point. */
  function Scale(d: nat): (p: real)
    ensures p >= 1.0
  {
    Pow10(d) as real
  }

  /** Java's RoundingMode.HALF_UP: the nearest integer, ties away from zero. */
  function RoundHalfUp(x: real): (u: int)
    ensures -0.5 <= u as real - x <= 0.5
    ensures u as real - x == 0.5 || x - u as real == 0.5 ==> Abs(u as real) > Abs(x)
  {
    if x >= 0.0 then (x + 0.5).Floor else -((-x + 0.5).Floor)
  }

  /** At least one digit and, when `scale` is positive, a point followed by exactly `scale` digits. */
  predicate IsUnsignedDecimal(body: string, scale: nat) {
    if scale == 0 then |body| >= 1 && AllDigits(body)
    else
      |body| >= scale + 2 && body[|body| - scale - 1] == '.'
      && AllDigits(body[..|body| - scale - 1]) && AllDigits(body[|body| - scale..])
  }

  /** The text of a fixed-point decimal: an optional '-' before an unsigned one. */
  predicate IsPlainDecimal(s: string, scale: nat) {
    if |s| > 0 && s[0] == '-' then IsUnsignedDecimal(s[1..], scale) else IsUnsignedDecimal(s, scale)
  }

  /** `digits` with a point before its last `scale` digits (no point when `scale` is zero). */
  function InsertPoint(digits: string, scale: nat): string
    requires AllDigits(digits) && |digits| >= scale + 1
  {
    if scale == 0 then digits
    else digits[..|digits| - scale] + "." + digits[|digits| - scale..]
  }

  /** The digits of `m`, padded with leading zeros to at least `scale + 1` places, with the point inserted. */
  function UnsignedText(m: nat, scale: nat): string {
    PaddedDigits(m, scale + 1);
    InsertPoint(PadLeft(NatToDigits(m), scale + 1), scale)
  }

  function SignOf(u: int): Sign {
    if u < 0 then Minus else Unsigned
  }

  /**
   * BigDecimal.toPlainString of the decimal with unscaled value `u` and scale `scale`: the digits
   * of |u| padded so that at least one digit precedes the point, and '-' only when `u` is negative.
   */
  function PlainString(u: int, scale: nat): string {
    SignOf(u).Text() + UnsignedText(if u < 0 then -u else u, scale)
  }

  /**
   * FractionUtil.toString: the fraction rounded HALF_UP to `decimalPlaces` fractional digits and
   * printed in plain notation. A negative `decimalPlaces` is a programming error in the source.
   */
  function ToString(fraction: real, decimalPlaces: int): string
    requires decimalPlaces >= 0
  {
    PlainString(RoundHalfUp(fraction * Scale(decimalPlaces)), decimalPlaces)
  }

  lemma PaddedDigits(m: nat, width: nat)
    ensures AllDigits(PadLeft(NatToDigits(m), width)) && |PadLeft(NatToDigits(m), width)| >= width
  {
    PaddedValue(NatToDigits(m), width);
  }

  lemma InsertPointShape(digits: string, scale: nat)
    requires AllDigits(digits) && |digits| >= scale + 1
    ensures var body := InsertPoint(digits, scale);
      IsUnsignedDecimal(body, scale) && |body| > 0 && body[0] != '-'
  {
    assert IsDigit(digits[0]);
    if scale > 0 {
      var i, f := digits[..|digits| - scale], digits[|digits| - scale..];
      var body := i + "." + f;
      assert body[..|body| - scale - 1] == i;
      assert body[|body| - scale..] == f;
      assert body[0] == digits[0];
    }
  }

  /** The printed text is a fixed-point decimal with exactly `scale` fractional digits, signed iff `u < 0`. */
  lemma PlainStringShape(u: int, scale: nat)
    ensures var s := PlainString(u, scale);
      IsPlainDecimal(s, scale) && |s| > 0 && (s[0] == '-' <==> u < 0)
  {
    var m: nat := if u < 0 then -u else u;
    PaddedDigits(m, scale + 1);
    InsertPointShape(PadLeft(NatToDigits(m), scale + 1), scale);
    SignedShape(SignOf(u), UnsignedText(m, scale), scale);
  }

  lemma SignedShape(sign: Sign, body: string, scale: nat)
    requires sign != Plus && IsUnsignedDecimal(body, scale) && |body| > 0 && body[0] != '-'
    ensures var s := sign.Text() + body;
      IsPlainDecimal(s, scale) && |s| > 0 && (s[0] == '-' <==> sign == Minus)
  {
    if sign == Minus {
      assert (sign.Text() + body)[1..] == body;
    } else {
      assert sign.Text() + body == body;
    }
  }

  /** toString always prints a plain decimal with exactly `decimalPlaces` digits after the point. */
  lemma ToStringShape(fraction: real, decimalPlaces: nat)
    ensures IsPlainDecimal(ToString(fraction, decimalPlaces), decimalPlaces)
  {
    assert ToString(fraction, decimalPlaces) == PlainString(RoundHalfUp(fraction * Scale(decimalPlaces)), decimalPlaces);
    PlainStringShape(RoundHalfUp(fraction * Scale(decimalPlaces)), decimalPlaces);
  }

  // ---------------------------------------------------------------------------------------------
  // sum

  /** The left fold of addition from zero. */
  function Sum(xs: seq<real>): real {
    if xs == [] then 0.0 else Sum(xs[..|xs| - 1]) + xs[|xs| - 1]
  }

  /** FractionUtil.sum: the running total over the list, starting from zero. */
  method SumList(list: seq<real>) returns (s: real)
    ensures s == Sum(list)
  {
    s := 0.0;
    var i := 0;
    while i < |list|
      invariant 0 <= i <= |list|
      invariant s == Sum(list[..i])
    {
      assert list[..i + 1][..i] == list[..i];
      s := s + list[i];
      i := i + 1;
    }
    assert list[..i] == list;
  }

  /** Summing a concatenation is adding the sums of its halves. */
  lemma {:induction false} SumConcat(xs: seq<real>, ys: seq<real>)
    ensures Sum(xs + ys) == Sum(xs) + Sum(ys)
    decreases |ys|
  {
    if ys == [] {
      assert xs + ys == xs;
    } else {
      var ys' := ys[..|ys| - 1];
      assert (xs + ys)[..|xs + ys| - 1] == xs + ys';
      SumConcat(xs, ys');
    }
  }

  /** Multiplying every term by the same factor multiplies the sum by it. */
  lemma {:induction false} SumScaled(xs: seq<real>, k: real, ys: seq<real>)
    requires |ys| == |xs| && forall i :: 0 <= i < |xs| ==> ys[i] == k * xs[i]
    ensures Sum(ys) == k * Sum(xs)
    decreases |xs|
  {
    if xs != [] {
      var n := |xs| - 1;
      SumScaled(xs[..n], k, ys[..n]);
      var a := Sum(xs[..n]);
      assert k * (a + xs[n]) == k * a + k * xs[n];
    }
  }

  lemma MultisetCancel<T>(a: multiset<T>, b: multiset<T>, x: T)
    requires a + multiset{x} == b + multiset{x}
    ensures a == b
  {
    forall y ensures a[y] == b[y] {
      assert (a + multiset{x})[y] == (b + multiset{x})[y];
    }
  }

  /**
   * Two orderings of the same elements: the last element of `xs` sits somewhere in `ys`, and
   * removing both leaves two orderings of the same remaining elements.
   */
  lemma MatchLast<T>(xs: seq<T>, ys: seq<T>) returns (i: nat)
    requires multiset(xs) == multiset(ys) && xs != []
    ensures i < |ys| && ys[i] == xs[|xs| - 1]
    ensures multiset(xs[..|xs| - 1]) == multiset(ys[..i] + ys[i + 1..])
  {
    var n := |xs| - 1;
    var x := xs[n];
    assert xs == xs[..n] + [x];
    assert x in multiset(ys);
    i :| 0 <= i < |ys| && ys[i] == x;
    var rest := ys[..i] + ys[i + 1..];
    assert ys == ys[..i] + [x] + ys[i + 1..];
    assert multiset(xs) == multiset(xs[..n]) + multiset{x};
    assert multiset(ys) == multiset(ys[..i]) + multiset{x} + multiset(ys[i + 1..]);
    assert multiset(rest) == multiset(ys[..i]) + multiset(ys[i + 1..]);
    MultisetCancel(multiset(xs[..n]), multiset(rest), x);
  }

  /** The order of the summands is irrelevant: lists with the same elements have the same sum. */
  lemma {:induction false} SumPermutation(xs: seq<real>, ys: seq<real>)
    requires multiset(xs) == multiset(ys)
    ensures Sum(xs) == Sum(ys)
    decreases |xs|
  {
    if xs != [] {
      var n := |xs| - 1;
      var x := xs[n];
      var i := MatchLast(xs, ys);
      SumPermutation(xs[..n], ys[..i] + ys[i + 1..]);
      assert ys == ys[..i] + [x] + ys[i + 1..];
      SumConcat(ys[..i] + [x], ys[i + 1..]);
      SumConcat(ys[..i], [x]);
      SumConcat(ys[..i], ys[i + 1..]);
      assert Sum([x]) == x by { assert [x][..0] == []; }
    } else {
      assert ys == [];
    }
  }

  // ---------------------------------------------------------------------------------------------
  // Splitting and joining are inverse

  lemma {:induction false} SplitAllJoin(s: string, sep: char)
    ensures Join(SplitAll(s, sep), sep) == s
  {
    if s != [] {
      var s', c := s[..|s| - 1], s[|s| - 1];
      assert s == s' + [c];
      var init := SplitAll(s', sep);
      SplitAllJoin(s', sep);
      var n := |init|;
      if c == sep {
        assert (init + [[]])[..n] == init;
      } else {
        var parts := init[..n - 1] + [init[n - 1] + [c]];
        if n > 1 {
          assert parts[..n - 1] == init[..n - 1];
          assert Join(init, sep) == Join(init[..n - 1], sep) + [sep] + init[n - 1];
        }
      }
    }
  }

  lemma {:induction false} SplitAllAppendFree(x: string, y: string, sep: char)
    requires sep !in y
    ensures var before := SplitAll(x, sep);
      SplitAll(x + y, sep) == before[..|before| - 1] + [before[|before| - 1] + y]
    decreases |y|
  {
    var before := SplitAll(x, sep);
    if y == [] {
      assert x + y == x;
      assert before[|before| - 1] + y == before[|before| - 1];
      assert before == before[..|before| - 1] + [before[|before| - 1]];
    } else {
      var y', c := y[..|y| - 1], y[|y| - 1];
      assert (x + y)[..|x + y| - 1] == x + y';
      assert (x + y)[|x + y| - 1] == c;
      SplitAllAppendFree(x, y', sep);
      assert before[|before| - 1] + y' + [c] == before[|before| - 1] + y;
    }
  }

  /** A separator at the end opens a new, empty piece. */
  lemma SplitAllSeparator(x: string, sep: char)
    ensures SplitAll(x + [sep], sep) == SplitAll(x, sep) + [[]]
  {
    assert (x + [sep])[..|x|] == x;
  }

  lemma {:induction false} JoinSplitAll(parts: seq<string>, sep: char)
    requires |parts| >= 1
    requires forall i :: 0 <= i < |parts| ==> sep !in parts[i]
    ensures SplitAll(Join(parts, sep), sep) == parts
  {
    if |parts| == 1 {
      SplitAllAppendFree([], parts[0], sep);
      assert [] + parts[0] == parts[0];
    } else {
      var init, p := parts[..|parts| - 1], parts[|parts| - 1];
      JoinSplitAll(init, sep);
      var j := Join(init, sep);
      assert Join(parts, sep) == j + [sep] + p;
      var before := SplitAll(j + [sep], sep);
      assert before == init + [[]] by { SplitAllSeparator(j, sep); }
      assert before[..|before| - 1] == init && before[|before| - 1] + p == p;
      SplitAllAppendFree(j + [sep], p, sep);
      assert parts == init + [p];
    }
  }

  // ---------------------------------------------------------------------------------------------
  // parseFraction, piece by piece

  lemma DigitsAreNotPunctuation(s: string)
    requires AllDigits(s)
    ensures '.' !in s && ' ' !in s && '-' !in s
  {
    forall i | 0 <= i < |s| ensures s[i] != '.' && s[i] != ' ' && s[i] != '-' {
      assert IsDigit(s[i]);
    }
  }

  /** Without a point the text is read as one integer. */
  lemma ParseWithoutPoint(a: string)
    requires '.' !in a && ' ' !in a
    ensures ParseFraction(a) == match ParseInteger(a)
      case Some(n) => Ok(n as real)
      case None => Err(NumberFormatException)
  {
  }

  /** Pieces free of the separator, the last one nonempty, come back from the split unchanged. */
  lemma JavaSplitJoin(parts: seq<string>, sep: char)
    requires |parts| >= 2 && parts[|parts| - 1] != []
    requires forall i :: 0 <= i < |parts| ==> sep !in parts[i]
    ensures JavaSplit(Join(parts, sep), sep) == parts
  {
    JoinSplitAll(parts, sep);
    var init := parts[..|parts| - 1];
    assert Join(parts, sep) == Join(init, sep) + [sep] + parts[|parts| - 1];
    assert Join(parts, sep)[|Join(init, sep)|] == sep;
  }

  /** Gluing two pieces without spaces with a point adds no space (stated apart from the parsing context). */
  lemma NoSpaceJoin(a: string, b: string)
    requires ' ' !in a && ' ' !in b
    ensures ' ' !in a + "." + b
  {
  }

  /** With one point and a nonempty tail, `a.b` is read as the integer `a ++ b` over 10^|b|. */
  lemma ParseWithPoint(a: string, b: string)
    requires '.' !in a && ' ' !in a && '.' !in b && ' ' !in b && b != []
    ensures ParseFraction(a + "." + b) == match ParseInteger(a + b)
      case Some(n) => Ok(n as real / Pow10(|b|) as real)
      case None => Err(NumberFormatException)
  {
    PointedSplit(a, b);
  }

  lemma PointedSplit(a: string, b: string)
    requires '.' !in a && ' ' !in a && '.' !in b && ' ' !in b && b != []
    ensures JavaSplit(RemoveSpaces(a + "." + b), '.') == [a, b]
  {
    var s := a + "." + b;
    NoSpaceJoin(a, b);
    assert RemoveSpaces(s) == s;
    assert s == Join([a, b], '.') by { assert [a, b][..1] == [a]; }
    JavaSplitJoin([a, b], '.');
  }

  /**
   * A point with nothing after it is dropped by the split, whatever comes before it: "5." reads
   * as "5", "1.2." as "1.2", ".5." as ".5" and "1.." as "1.", and "." alone fails.
   */
  lemma ParseTrailingPoint(a: string)
    requires ' ' !in a
    ensures a != [] ==> ParseFraction(a + ".") == ParseFraction(a)
    ensures a == [] ==> ParseFraction(a + ".").Err?
  {
    var s := a + ".";
    assert RemoveSpaces(s) == s by { NoSpaceJoin(a, []); assert s == a + "." + []; }
    JavaSplitTrailingSeparator(a, '.');
  }

  /** Java's split ignores one separator at the end: it only adds an empty piece, which is dropped. */
  lemma JavaSplitTrailingSeparator(a: string, sep: char)
    ensures a != [] ==> JavaSplit(a + [sep], sep) == JavaSplit(a, sep)
    ensures a == [] ==> JavaSplit(a + [sep], sep) == []
  {
    var s := a + [sep];
    var pieces := SplitAll(a, sep);
    assert SplitAll(s, sep) == pieces + [[]] by { SplitAllSeparator(a, sep); }
    assert (pieces + [[]])[..|pieces|] == pieces;
    assert JavaSplit(s, sep) == DropTrailingEmpty(pieces) by { assert s[|a|] == sep; }
    if sep !in a {
      assert pieces == [a] by { SplitAllAppendFree([], a, sep); assert [] + a == a; }
    }
  }

  /** Pieces without spaces glued with points give a text without spaces. */
  lemma {:induction false} NoSpaceInJoin(parts: seq<string>)
    requires |parts| >= 1 && forall i :: 0 <= i < |parts| ==> ' ' !in parts[i]
    ensures ' ' !in Join(parts, '.')
  {
    if |parts| > 1 {
      NoSpaceInJoin(parts[..|parts| - 1]);
    }
  }

  /** Three or more pieces around the points, the last one nonempty (`a.b.c`, `1.2.3.4`), always fail. */
  lemma ParseManyPiecesFails(parts: seq<string>)
    requires |parts| >= 3 && parts[|parts| - 1] != []
    requires forall i :: 0 <= i < |parts| ==> '.' !in parts[i] && ' ' !in parts[i]
    ensures ParseFraction(Join(parts, '.')).Err?
  {
    NoSpaceInJoin(parts);
    JavaSplitJoin(parts, '.');
  }

  /** Splitting a text made only of points leaves nothing but empty pieces. */
  lemma {:induction false} SplitAllPoints(s: string)
    requires forall i :: 0 <= i < |s| ==> s[i] == '.'
    ensures forall i :: 0 <= i < |SplitAll(s, '.')| ==> SplitAll(s, '.')[i] == []
  {
    if s != [] {
      SplitAllPoints(s[..|s| - 1]);
    }
  }

  /** A text made only of points (".", "..", ...) splits into no pieces at all and fails. */
  lemma ParsePointsOnlyFails(s: string)
    requires s != [] && forall i :: 0 <= i < |s| ==> s[i] == '.'
    ensures ParseFraction(s).Err?
  {
    assert ' ' !in s;
    assert '.' in s by { assert s[0] == '.'; }
    SplitAllPoints(s);
  }

  lemma SignedRead(sign: Sign, ds: string)
    requires AllDigits(ds) && |ds| >= 1
    ensures ParseInteger(sign.Text() + ds) == Some(if sign == Minus then -(Value(ds) as int) else Value(ds))
  {
    if sign == Unsigned {
      assert sign.Text() + ds == ds;
      UnsignedRead(ds);
    } else {
      SignPrefixRead(sign.Text()[0], ds);
      assert sign.Text() + ds == [sign.Text()[0]] + ds;
    }
  }

  lemma UnsignedRead(ds: string)
    requires AllDigits(ds) && |ds| >= 1
    ensures ParseInteger(ds) == Some(Value(ds))
  {
    assert IsDigit(ds[0]);
  }

  lemma SignPrefixRead(c: char, ds: string)
    requires c == '-' || c == '+'
    requires AllDigits(ds) && |ds| >= 1
    ensures ParseInteger([c] + ds) == Some(if c == '-' then -(Value(ds) as int) else Value(ds))
  {
    var s := [c] + ds;
    assert s[0] == c && s[1..] == ds;
    PrefixedRead(s);
  }

  lemma PrefixedRead(s: string)
    requires |s| > 1 && (s[0] == '-' || s[0] == '+') && AllDigits(s[1..])
    ensures ParseInteger(s) == Some(if s[0] == '-' then -(Value(s[1..]) as int) else Value(s[1..]))
  {
  }

  /** An integer literal with an optional sign parses to exactly the integer it denotes. */
  lemma ParseIntegerLiteral(sign: Sign, intPart: string)
    requires AllDigits(intPart) && |intPart| >= 1
    ensures ParseFraction(sign.Text() + intPart) == Ok(LiteralValue(sign, intPart, ""))
  {
    var n := if sign == Minus then -(Value(intPart) as int) else Value(intPart);
    LiteralHasNoPoint(sign, intPart);
    SignedRead(sign, intPart);
    ParseOnePiece(sign.Text() + intPart, n);
  }

  lemma LiteralHasNoPoint(sign: Sign, intPart: string)
    requires AllDigits(intPart)
    ensures '.' !in sign.Text() + intPart && ' ' !in sign.Text() + intPart
  {
    DigitsAreNotPunctuation(intPart);
  }

  lemma ParseOnePiece(s: string, n: int)
    requires '.' !in s && ' ' !in s && ParseInteger(s) == Some(n)
    ensures ParseFraction(s) == Ok(n as real)
  {
    ParseWithoutPoint(s);
  }

  /** A decimal literal `sign int.frac` parses to exactly its decimal value (the integer part may be empty). */
  lemma ParseDecimalLiteral(sign: Sign, intPart: string, fracPart: string)
    requires AllDigits(intPart) && AllDigits(fracPart) && |fracPart| >= 1
    ensures ParseFraction(sign.Text() + intPart + "." + fracPart) == Ok(LiteralValue(sign, intPart, fracPart))
  {
    LiteralHasNoPoint(sign, intPart);
    DigitsAreNotPunctuation(fracPart);
    ReadConcatenation(sign, intPart, fracPart);
    var n := Signed(sign, Value(intPart + fracPart));
    ParseTwoPieces(sign.Text() + intPart + "." + fracPart, sign.Text() + intPart, fracPart, n);
    LiteralOfConcatenation(sign, intPart, fracPart);
  }

  /** `s` is `a.b`: it reads as the integer `a ++ b` over 10^|b|. */
  lemma ParseTwoPieces(s: string, a: string, b: string, n: int)
    requires s == a + "." + b
    requires '.' !in a && ' ' !in a && '.' !in b && ' ' !in b && b != []
    requires ParseInteger(a + b) == Some(n)
    ensures ParseFraction(s) == Ok(n as real / Scale(|b|))
  {
    ParseWithPoint(a, b);
  }

  lemma ReadConcatenation(sign: Sign, intPart: string, fracPart: string)
    requires AllDigits(intPart) && AllDigits(fracPart) && |fracPart| >= 1
    ensures AllDigits(intPart + fracPart)
    ensures var v := Value(intPart + fracPart);
      ParseInteger(sign.Text() + intPart + fracPart) == Some(if sign == Minus then -(v as int) else v)
  {
    AllDigitsConcat(intPart, fracPart);
    assert sign.Text() + intPart + fracPart == sign.Text() + (intPart + fracPart);
    SignedRead(sign, intPart + fracPart);
  }

  /** The integer read from `int ++ frac`, scaled down by 10^|frac|, is the literal's value. */
  lemma LiteralOfConcatenation(sign: Sign, intPart: string, fracPart: string)
    requires AllDigits(intPart) && AllDigits(fracPart)
    ensures AllDigits(intPart + fracPart)
    ensures Signed(sign, Value(intPart + fracPart)) as real / Scale(|fracPart|) == LiteralValue(sign, intPart, fracPart)
  {
    ValueConcat(intPart, fracPart);
    ScaledLiteral(sign == Minus, Value(intPart), Pow10(|fracPart|), Value(fracPart), Value(intPart + fracPart));
  }

  /** `(a * b + c) / b == a + c / b`, with an optional negation on both sides. */
  lemma ScaledLiteral(negative: bool, a: nat, b: nat, c: nat, v: nat)
    requires b > 0 && v == a * b + c
    ensures var m := a as real + c as real / b as real;
      (if negative then -(v as int) else v) as real / b as real == (if negative then -m else m)
  {
    var ra, rb, rc := a as real, b as real, c as real;
    assert v as real == ra * rb + rc;
    assert (ra * rb + rc) / rb == ra + rc / rb by {
      assert ra * rb / rb == ra;
    }
    if negative {
      assert (-(v as int)) as real / rb == -(v as real / rb);
    }
  }

  /** Removing spaces works piece by piece: the spaces of a concatenation are those of its parts. */
  lemma {:induction false} RemoveSpacesConcat(a: string, b: string)
    ensures RemoveSpaces(a + b) == RemoveSpaces(a) + RemoveSpaces(b)
    decreases |b|
  {
    if b == [] {
      assert a + b == a;
    } else {
      var b', c := b[..|b| - 1], b[|b| - 1];
      assert (a + b)[..|a + b| - 1] == a + b' && (a + b)[|a + b| - 1] == c;
      RemoveSpacesConcat(a, b');
    }
  }

  /** Deleting one space anywhere in the text does not change what it reads as. */
  lemma ParseDropsSpace(a: string, b: string)
    ensures ParseFraction(a + " " + b) == ParseFraction(a + b)
  {
    RemoveSpacesConcat(a + " ", b);
    RemoveSpacesConcat(a, " ");
    RemoveSpacesConcat(a, b);
  }

  /** Spaces anywhere in the text are irrelevant. */
  lemma ParseIgnoresSpaces(s: string)
    ensures ParseFraction(s) == ParseFraction(RemoveSpaces(s))
  {
    assert RemoveSpaces(RemoveSpaces(s)) == RemoveSpaces(s);
  }

  /** A text without a point that is not a signed digit string fails. */
  lemma ParseMalformedIntegerFails(s: string)
    requires '.' !in s && ' ' !in s && !SignedDigits(s)
    ensures ParseFraction(s).Err?
  {
    ParseWithoutPoint(s);
  }

  /** A trailing zero after the point never changes the value of a text that parses. */
  lemma ParseTrailingZero(a: string, b: string)
    requires '.' !in a && ' ' !in a && '.' !in b && ' ' !in b
    requires ParseFraction(a + "." + b).Ok?
    ensures ParseFraction(a + "." + b + "0") == ParseFraction(a + "." + b)
  {
    if b == [] {
      TrailingZeroAfterPoint(a, b);
    } else {
      TrailingZeroInFraction(a, b);
    }
  }

  /** "a." reads as "a", and "a.0" as ten times "a" over ten. */
  lemma TrailingZeroAfterPoint(a: string, b: string)
    requires b == [] && '.' !in a && ' ' !in a
    requires ParseFraction(a + "." + b).Ok?
    ensures ParseFraction(a + "." + b + "0") == ParseFraction(a + "." + b)
  {
    var n := PointOnlyRead(a, b);
    assert ParseInteger(a + b + "0") == Some(10 * n) by {
      AppendZeroRead(a);
      assert a + b + "0" == a + "0";
    }
    ParseAppendedZero(a, b, 10 * n);
    assert Pow10(|b|) == 1;
    TenfoldQuotient(n, Pow10(|b|));
  }

  /** With nothing after the point, the text reads as the integer before it. */
  lemma PointOnlyRead(a: string, b: string) returns (n: int)
    requires b == [] && '.' !in a && ' ' !in a
    requires ParseFraction(a + "." + b).Ok?
    ensures ParseInteger(a) == Some(n) && ParseFraction(a + "." + b) == Ok(n as real)
  {
    assert a + "." + b == a + ".";
    ParseTrailingPoint(a);
    ParseWithoutPoint(a);
    n := ParseInteger(a).value;
  }

  lemma TrailingZeroInFraction(a: string, b: string)
    requires '.' !in a && ' ' !in a && '.' !in b && ' ' !in b && b != []
    requires ParseFraction(a + "." + b).Ok?
    ensures ParseFraction(a + "." + b + "0") == ParseFraction(a + "." + b)
  {
    ParseWithPoint(a, b);
    var n := ParseInteger(a + b).value;
    AppendZeroRead(a + b);
    ParseAppendedZero(a, b, 10 * n);
    TenfoldQuotient(n, Pow10(|b|));
  }

  /** A zero appended after the point: the digits read as one integer over ten times the old scale. */
  lemma ParseAppendedZero(a: string, b: string, m: int)
    requires '.' !in a && ' ' !in a && '.' !in b && ' ' !in b
    requires ParseInteger(a + b + "0") == Some(m)
    ensures ParseFraction(a + "." + b + "0") == Ok(m as real / (10 * Pow10(|b|)) as real)
  {
    AppendedZeroShape(a, b);
    ParseTwoPieces(a + "." + b + "0", a, b + "0", m);
  }

  /** The text with a zero appended after the point, seen as the pieces `a` and `b ++ "0"`. */
  lemma AppendedZeroShape(a: string, b: string)
    requires '.' !in b && ' ' !in b
    ensures a + "." + b + "0" == a + "." + (b + "0")
    ensures a + (b + "0") == a + b + "0"
    ensures '.' !in b + "0" && ' ' !in b + "0" && b + "0" != []
    ensures Pow10(|b + "0"|) == 10 * Pow10(|b|)
  {
  }

  /** Ten times the numerator over ten times the denominator (kept apart from the parsing context). */
  lemma TenfoldQuotient(n: int, p: nat)
    requires p > 0
    ensures (10 * n) as real / (10 * p) as real == n as real / p as real
    ensures p == 1 ==> (10 * n) as real / (10 * p) as real == n as real
  {
  }

  /** Appending a zero digit multiplies the integer read by ten, and keeps a refusal a refusal
      except for the bare signs and the empty text. */
  lemma AppendZeroRead(s: string)
    ensures ParseInteger(s).Some? ==> ParseInteger(s + "0") == Some(10 * ParseInteger(s).value)
    ensures ParseInteger(s).None? && s != [] && s != "-" && s != "+" ==> ParseInteger(s + "0").None?
  {
    var s0 := s + "0";
    if |s| > 0 && (s[0] == '-' || s[0] == '+') {
      assert s0[0] == s[0];
      assert s0[1..] == s[1..] + "0";
      if |s| > 1 && AllDigits(s[1..]) {
        ValueConcat(s[1..], "0");
        assert Value("0") == 0 by { assert "0"[..0] == []; }
      } else if |s| > 1 {
        var i :| 0 <= i < |s[1..]| && !IsDigit(s[1..][i]);
        assert s0[1..][i] == s[1..][i];
      }
    } else if |s| > 0 {
      assert s0[0] == s[0];
      if AllDigits(s) {
        ValueConcat(s, "0");
        assert Value("0") == 0 by { assert "0"[..0] == []; }
      } else {
        var i :| 0 <= i < |s| && !IsDigit(s[i]);
        assert s0[i] == s[i];
      }
    }
  }

  // ---------------------------------------------------------------------------------------------
  // toString: what the printed text means

  /** The two forms of a literal's text, stated apart so that proofs about parsing need not unfold `Literal`. */
  lemma LiteralShape(sign: Sign, intPart: string, fracPart: string)
    ensures fracPart == [] ==> Literal(sign, intPart, fracPart) == sign.Text() + intPart
    ensures fracPart != [] ==> Literal(sign, intPart, fracPart) == sign.Text() + intPart + "." + fracPart
  {
  }

  /** Every decimal literal parses to exactly its value. */
  lemma ParseLiteral(sign: Sign, intPart: string, fracPart: string)
    requires AllDigits(intPart) && AllDigits(fracPart) && |intPart + fracPart| >= 1
    ensures ParseFraction(Literal(sign, intPart, fracPart)) == Ok(LiteralValue(sign, intPart, fracPart))
  {
    LiteralShape(sign, intPart, fracPart);
    if fracPart == [] {
      ParseIntegerLiteral(sign, intPart);
    } else {
      ParseDecimalLiteral(sign, intPart, fracPart);
    }
  }

  /** The digits of `|u|` padded to `scale + 1` places, cut before the last `scale` of them. */
  lemma PlainStringIsLiteral(u: int, scale: nat) returns (intPart: string, fracPart: string)
    ensures AllDigits(intPart) && AllDigits(fracPart) && |intPart| >= 1 && |fracPart| == scale
    ensures Value(intPart + fracPart) == if u < 0 then -u else u
    ensures PlainString(u, scale) == Literal(SignOf(u), intPart, fracPart)
  {
    var mag: nat := if u < 0 then -u else u;
    var digits := PadLeft(NatToDigits(mag), scale + 1);
    PaddedValue(NatToDigits(mag), scale + 1);
    intPart, fracPart := CutDigits(digits, scale);
    InsertPointLiteral(intPart, fracPart);
    var tail := if fracPart == [] then "" else "." + fracPart;
    ConcatAssociates(SignOf(u).Text(), intPart, tail);
  }

  /** Concatenation regrouped, stated apart from the printing context. */
  lemma ConcatAssociates(a: string, b: string, c: string)
    ensures a + (b + c) == a + b + c
  {
  }

  lemma CutDigits(digits: string, scale: nat) returns (intPart: string, fracPart: string)
    requires AllDigits(digits) && |digits| >= scale + 1
    ensures intPart + fracPart == digits && |intPart| >= 1 && |fracPart| == scale
    ensures AllDigits(intPart) && AllDigits(fracPart)
  {
    intPart, fracPart := digits[..|digits| - scale], digits[|digits| - scale..];
    assert intPart + fracPart == digits;
    assert forall k :: 0 <= k < |intPart| ==> intPart[k] == digits[k];
    assert forall k :: 0 <= k < |fracPart| ==> fracPart[k] == digits[|digits| - scale + k];
  }

  lemma PaddedValue(x: string, width: nat)
    requires AllDigits(x)
    ensures AllDigits(PadLeft(x, width)) && Value(PadLeft(x, width)) == Value(x)
  {
    if |x| < width {
      ValueLeadingZeros(width - |x|, x);
    }
  }

  /** The text printed for unscaled value `u` at scale `scale` reads back as exactly `u / 10^scale`. */
  lemma PlainStringParses(u: int, scale: nat)
    ensures ParseFraction(PlainString(u, scale)) == Ok(u as real / Scale(scale))
  {
    var intPart, fracPart := PlainStringIsLiteral(u, scale);
    ParseLiteral(SignOf(u), intPart, fracPart);
    LiteralOfConcatenation(SignOf(u), intPart, fracPart);
    assert Signed(SignOf(u), Value(intPart + fracPart)) == u;
  }

  /**
   * `v` is a nearest multiple of `1/p` to `q`: it is within half a step of `q`, and when it is exactly
   * half a step away it lies further from zero than `q` (HALF_UP).
   */
  predicate NearestHalfUp(v: real, q: real, p: real)
    requires p > 0.0
  {
    && Abs(v - q) <= 0.5 / p
    && (Abs(v - q) == 0.5 / p ==> Abs(v) > Abs(q))
  }

  /** Dividing the rounded integer by 10^d lands within half a unit of 10^-d of `q`, ties away from zero. */
  lemma RoundedQuotient(q: real, p: real, u: int)
    requires p >= 1.0
    requires -0.5 <= u as real - q * p <= 0.5
    requires u as real - q * p == 0.5 || q * p - u as real == 0.5 ==> Abs(u as real) > Abs(q * p)
    ensures NearestHalfUp(u as real / p, q, p)
  {
    var x := q * p;
    var e := u as real - x;
    ErrorQuotient(q, p, u as real);
    DivideAbs(e, p);
    DivideMonotone(Abs(e), 0.5, p);
    if Abs(e) / p == 0.5 / p {
      DivideCancel(Abs(e), 0.5, p);
      DivideAbs(u as real, p);
      DivideAbs(x, p);
      DivideMonotone(Abs(x), Abs(u as real), p);
    }
  }

  lemma RoundedScaled(q: real, p: real)
    requires p >= 1.0
    ensures NearestHalfUp(RoundHalfUp(q * p) as real / p, q, p)
  {
    RoundedQuotient(q, p, RoundHalfUp(q * p));
  }

  lemma ErrorQuotient(q: real, p: real, y: real)
    requires p > 0.0
    ensures y / p - q == (y - q * p) / p && (q * p) / p == q
  {
  }

  lemma DivideAbs(e: real, p: real)
    requires p > 0.0
    ensures Abs(e / p) == Abs(e) / p
  {
  }

  lemma DivideMonotone(a: real, b: real, p: real)
    requires p > 0.0
    ensures a <= b ==> a / p <= b / p
    ensures a < b ==> a / p < b / p
  {
  }

  lemma DivideCancel(a: real, b: real, p: real)
    requires p > 0.0 && a / p == b / p
    ensures a == b
  {
  }

  /**
   * toString prints the value nearest to `q` with `decimalPlaces` fractional digits: what it prints
   * reads back within half a unit in the last place, and a tie is resolved away from zero.
   */
  lemma ToStringNearest(q: real, decimalPlaces: nat)
    ensures var r := ParseFraction(ToString(q, decimalPlaces));
      r.Ok? && NearestHalfUp(r.value, q, Scale(decimalPlaces))
  {
    ParseToString(q, decimalPlaces);
    RoundedScaled(q, Scale(decimalPlaces));
  }

  /** What toString prints reads back as the rounded unscaled value over 10^d. */
  lemma ParseToString(q: real, decimalPlaces: nat)
    ensures ParseFraction(ToString(q, decimalPlaces)) == Ok(RoundHalfUp(q * Scale(decimalPlaces)) as real / Scale(decimalPlaces))
  {
    assert ToString(q, decimalPlaces) == PlainString(RoundHalfUp(q * Scale(decimalPlaces)), decimalPlaces);
    PlainStringParses(RoundHalfUp(q * Scale(decimalPlaces)), decimalPlaces);
  }

  lemma RoundInteger(n: int)
    ensures RoundHalfUp(n as real) == n
  {
  }

  lemma QuotientTimesDivisor(n: int, p: real, x: real)
    requires p > 0.0 && x == n as real / p
    ensures x * p == n as real
  {
  }

  lemma RoundExact(x: real, p: real, n: int)
    requires x * p == n as real
    ensures RoundHalfUp(x * p) == n
  {
    RoundInteger(n);
  }

  /** A value that is exactly `n` units of 10^-d is printed from `n` itself. */
  lemma ToStringExact(x: real, decimalPlaces: nat, n: int)
    requires x * Scale(decimalPlaces) == n as real
    ensures ToString(x, decimalPlaces) == PlainString(n, decimalPlaces)
  {
    var u := RoundHalfUp(x * Scale(decimalPlaces));
    assert u == n by { RoundExact(x, Scale(decimalPlaces), n); }
    assert ToString(x, decimalPlaces) == PlainString(u, decimalPlaces);
  }

  /** An integer over 10^d is printed at `d` places with no rounding at all. */
  lemma ToStringOfQuotient(n: int, decimalPlaces: nat)
    ensures ToString(n as real / Scale(decimalPlaces), decimalPlaces) == PlainString(n, decimalPlaces)
  {
    var x := n as real / Scale(decimalPlaces);
    QuotientTimesDivisor(n, Scale(decimalPlaces), x);
    ToStringExact(x, decimalPlaces, n);
  }

  /** Padding the value of `int ++ frac` back to `|frac| + 1` digits gives the same digits when `int` is canonical. */
  lemma PadCanonical(intPart: string, fracPart: string)
    requires Canonical(intPart) && AllDigits(fracPart)
    ensures AllDigits(intPart + fracPart)
    ensures PadLeft(NatToDigits(Value(intPart + fracPart)), |fracPart| + 1) == intPart + fracPart
  {
    AllDigitsConcat(intPart, fracPart);
    var ds := intPart + fracPart;
    if intPart[0] == '0' {
      PaddedRoundTrip(ds);
    } else {
      assert ds[0] == intPart[0];
      CanonicalRoundTrip(ds);
    }
  }

  lemma InsertPointLiteral(intPart: string, fracPart: string)
    requires AllDigits(intPart) && AllDigits(fracPart) && |intPart| >= 1
    ensures AllDigits(intPart + fracPart)
    ensures InsertPoint(intPart + fracPart, |fracPart|) == intPart + (if fracPart == [] then "" else "." + fracPart)
  {
    AllDigitsConcat(intPart, fracPart);
    if fracPart == [] {
      assert intPart + fracPart == intPart;
    } else {
      InsertPointCut(intPart, fracPart);
    }
  }

  lemma InsertPointCut(intPart: string, fracPart: string)
    requires AllDigits(intPart + fracPart) && |intPart| >= 1 && |fracPart| >= 1
    ensures InsertPoint(intPart + fracPart, |fracPart|) == intPart + "." + fracPart
  {
    var ds := intPart + fracPart;
    assert ds[..|ds| - |fracPart|] == intPart;
    assert ds[|ds| - |fracPart|..] == fracPart;
  }

  /** Printing the exact value of a canonical literal at its own scale gives the literal back. */
  lemma PlainStringOfLiteral(sign: Sign, intPart: string, fracPart: string)
    requires sign != Plus && Canonical(intPart) && AllDigits(fracPart)
    requires AllDigits(intPart + fracPart)
    requires sign == Minus ==> Value(intPart + fracPart) != 0
    ensures PlainString(Signed(sign, Value(intPart + fracPart)), |fracPart|) == Literal(sign, intPart, fracPart)
  {
    var tail := if fracPart == [] then "" else "." + fracPart;
    CanonicalBody(intPart, fracPart);
    SignedText(sign, Value(intPart + fracPart), |fracPart|, intPart + tail);
    assert PlainString(Signed(sign, Value(intPart + fracPart)), |fracPart|) == sign.Text() + (intPart + tail);
    assert sign.Text() + (intPart + tail) == sign.Text() + intPart + tail;
    assert Literal(sign, intPart, fracPart) == sign.Text() + intPart + tail;
  }

  /** The unsigned body printed for a canonical literal's digits is the literal without its sign. */
  lemma CanonicalBody(intPart: string, fracPart: string)
    requires Canonical(intPart) && AllDigits(fracPart)
    ensures AllDigits(intPart + fracPart)
    ensures UnsignedText(Value(intPart + fracPart), |fracPart|) == intPart + (if fracPart == [] then "" else "." + fracPart)
  {
    PadCanonical(intPart, fracPart);
    InsertPointLiteral(intPart, fracPart);
  }

  /** The integer `v` with the sign `sign` applied. */
  function Signed(sign: Sign, v: nat): int {
    if sign == Minus then -(v as int) else v
  }

  lemma SignedText(sign: Sign, v: nat, scale: nat, body: string)
    requires sign != Plus && (sign == Minus ==> v != 0) && UnsignedText(v, scale) == body
    ensures PlainString(Signed(sign, v), scale) == sign.Text() + body
  {
    var n := Signed(sign, v);
    assert SignOf(n) == sign && (if n < 0 then -n else n) == v;
  }

  /**
   * Round trip: a canonical decimal literal (no '+', no redundant leading zero, no negative zero)
   * with `k` fractional digits is printed back unchanged at `k` decimal places.
   */
  lemma ToStringRoundTrip(sign: Sign, intPart: string, fracPart: string)
    requires sign != Plus && Canonical(intPart) && AllDigits(fracPart)
    requires AllDigits(intPart + fracPart)
    requires sign == Minus ==> Value(intPart + fracPart) != 0
    ensures var r := ParseFraction(Literal(sign, intPart, fracPart));
      r.Ok? && ToString(r.value, |fracPart|) == Literal(sign, intPart, fracPart)
  {
    ParseLiteral(sign, intPart, fracPart);
    LiteralOfConcatenation(sign, intPart, fracPart);
    ToStringOfQuotient(Signed(sign, Value(intPart + fracPart)), |fracPart|);
    PlainStringOfLiteral(sign, intPart, fracPart);
  }
  // ---------------------------------------------------------------------------------------------
  // A sign after the point

  /** With nothing before the point, the piece after it is read as the whole integer. */
  lemma PointThenPiece(b: string, n: int)
    requires '.' !in b && ' ' !in b && b != [] && ParseInteger(b) == Some(n)
    ensures ParseFraction("." + b) == Ok(n as real / Scale(|b|))
  {
    assert "." + b == [] + "." + b;
    assert [] + b == b;
    ParseTwoPieces("." + b, [], b, n);
  }

  /**
   * As written, an empty piece before the point lets the piece after it carry the sign: a point
   * followed by "-" or "+" and digits is read as the signed digits over 10^(1 + number of digits),
   * the sign counted as a decimal place, so ".-5" is -0.05 and ".+5" is 0.05.
   */
  lemma SignAfterPointAccepted(b: string)
    requires |b| >= 2 && (b[0] == '-' || b[0] == '+') && AllDigits(b[1..])
    ensures ParseFraction("." + b) == Ok((if b[0] == '-' then -(Value(b[1..]) as int) else Value(b[1..])) as real / Scale(|b|))
  {
    var n := if b[0] == '-' then -(Value(b[1..]) as int) else Value(b[1..]);
    assert '.' !in b && ' ' !in b by {
      DigitsAreNotPunctuation(b[1..]);
      forall i | 1 <= i < |b| ensures b[i] == b[1..][i - 1] { }
    }
    PrefixedRead(b);
    PointThenPiece(b, n);
  }

  /** parseFraction as evidently intended: the piece after the point must consist of digits only. */
  function ParseFractionStrict(s: string): (r: Result<real, ParseError>)
    ensures r.Ok? ==> r == ParseFraction(s)
  {
    var parts := JavaSplit(RemoveSpaces(s), '.');
    if |parts| == 2 && !AllDigits(parts[1]) then Err(NumberFormatException) else ReadPieces(parts)
  }

  /** The strict reader refuses a sign, either one, after the point. */
  lemma StrictRefusesSignAfterPoint(b: string)
    requires |b| >= 2 && (b[0] == '-' || b[0] == '+') && AllDigits(b[1..])
    ensures ParseFractionStrict("." + b).Err?
  {
    assert '.' !in b && ' ' !in b by {
      DigitsAreNotPunctuation(b[1..]);
      forall i | 1 <= i < |b| ensures b[i] == b[1..][i - 1] { }
    }
    assert "." + b == [] + "." + b;
    PointedSplit([], b);
    assert !IsDigit(b[0]);
  }

  /** The strict reader accepts every decimal literal, with its exact value. */
  lemma StrictAcceptsLiterals(sign: Sign, intPart: string, fracPart: string)
    requires AllDigits(intPart) && AllDigits(fracPart) && |intPart + fracPart| >= 1
    ensures ParseFractionStrict(Literal(sign, intPart, fracPart)) == Ok(LiteralValue(sign, intPart, fracPart))
  {
    ParseLiteral(sign, intPart, fracPart);
    LiteralShape(sign, intPart, fracPart);
    LiteralHasNoPoint(sign, intPart);
    if fracPart != [] {
      DigitsAreNotPunctuation(fracPart);
      PointedSplit(sign.Text() + intPart, fracPart);
    }
  }

  /**
   * Whatever the strict reader accepts with a point is a decimal literal: the piece before the
   * point is an optional sign and digits, the piece after it digits, and the value is theirs.
   */
  lemma StrictReadsLiteral(s: string) returns (sign: Sign, intPart: string)
    requires ParseFractionStrict(s).Ok? && |JavaSplit(RemoveSpaces(s), '.')| == 2
    ensures var parts := JavaSplit(RemoveSpaces(s), '.');
      AllDigits(intPart) && AllDigits(parts[1]) && parts[0] == sign.Text() + intPart
      && ParseFractionStrict(s) == Ok(LiteralValue(sign, intPart, parts[1]))
  {
    var parts := JavaSplit(RemoveSpaces(s), '.');
    var a, b := parts[0], parts[1];
    assert '.' in RemoveSpaces(s);
    assert b != [];
    sign, intPart := SplitSign(a, b);
    var v := Value(intPart + b);
    assert ParseInteger(a + b) == Some(Signed(sign, v)) by {
      ReadConcatenation(sign, intPart, b);
      assert a + b == sign.Text() + intPart + b;
    }
    LiteralOfConcatenation(sign, intPart, b);
  }

  /** A signed digit string that ends in the digits `b` is an optional sign and digits followed by `b`. */
  lemma SplitSign(a: string, b: string) returns (sign: Sign, intPart: string)
    requires SignedDigits(a + b) && AllDigits(b) && b != []
    ensures AllDigits(intPart) && a == sign.Text() + intPart
  {
    var ab := a + b;
    if |a| > 0 && (a[0] == '-' || a[0] == '+') {
      sign := if a[0] == '-' then Minus else Plus;
      intPart := a[1..];
      assert ab[1..] == intPart + b;
      assert AllDigits(intPart) by {
        forall i | 0 <= i < |intPart| ensures IsDigit(intPart[i]) { assert intPart[i] == ab[1..][i]; }
      }
    } else {
      sign, intPart := Unsigned, a;
      assert AllDigits(intPart) by {
        forall i | 0 <= i < |intPart| ensures IsDigit(intPart[i]) { assert intPart[i] == ab[i]; }
      }
    }
  }
}

=== FILE: results.dfy ===
/** Failure-carrying results used by every operation that the application signals with an exception. */
module Results {

  /** An optional value: `None` stands for Java's null. */
  datatype Option<+T> = None | Some(value: T)

  /** Either a computed value or the error the application would throw. */
  datatype Result<+T, +E> = Ok(value: T) | Err(error: E)
}

=== FILE: transactions.dfy ===
/**
 * A transaction of the ledger and the exact proportional split of its amount among the
 * participants (the Transaction, Expense and Person records).
 *
 * The expense set of a transaction is kept as a sequence: the sequence is the set in its
 * iteration order, with one expense per participant. Everything computed from it is shown below
 * not to depend on that order, and sameness compares it as a set.
 */
module Transactions {
  import opened Results
  import FractionUtil

  type Name = string

  /** A participant's relative claim on the amount; weights are strictly positive. */
  type Weight = w: real | w > 0.0 witness 1.0

  /** A person of the address book; only the name takes part in transactions. */
  datatype Person = Person(name: Name)

  /** One participant of a transaction with the weight of their share. */
  datatype Expense = Expense(personName: Name, weight: Weight)

  /** A point in time, kept as an opaque ordered value. */
  type Timestamp = int

  /** The expense set of a transaction: at most one expense per participant. */
  type ExpenseList = es: seq<Expense> | DistinctNames(es) witness []

  datatype Transaction = Transaction(
    amount: real,
    description: string,
    payeeName: Name,
    expenses: ExpenseList,
    timestamp: Timestamp)

  datatype TransactionError = ParticipantNotFound

  /** Java's `Object` as the argument of `equals`: null, a transaction, or an object of another class. */
  datatype Obj = NullObj | TransactionObj(transaction: Transaction) | OtherObj

  // ---------------------------------------------------------------------------------------------
  // Participants

  function Weights(es: seq<Expense>): (ws: seq<real>)
    ensures |ws| == |es|
  {
    seq(|es|, i requires 0 <= i < |es| => es[i].weight)
  }

  /** The names of all participants. */
  function ParticipantNames(t: Transaction): set<Name> {
    set e | e in t.expenses :: e.personName
  }

  /** No two expenses of the set belong to the same person. */
  predicate DistinctNames(es: seq<Expense>) {
    forall i, j :: 0 <= i < j < |es| ==> es[i].personName != es[j].personName
  }

  /** Transaction.isPersonInvolved: some expense of the transaction carries the person's name. */
  predicate IsPersonInvolved(t: Transaction, person: Person) {
    exists e :: e in t.expenses && e.personName == person.name
  }

  /** The position of the first expense of `name`, if any. */
  function FindExpense(es: seq<Expense>, name: Name): (r: Option<nat>)
    ensures r.Some? ==> r.value < |es| && es[r.value].personName == name
    ensures r.Some? ==> forall j :: 0 <= j < r.value ==> es[j].personName != name
    ensures r.None? <==> forall j :: 0 <= j < |es| ==> es[j].personName != name
  {
    FindFrom(es, name, 0)
  }

  /** The position of the first expense of `name` at or after position `k`, if any. */
  function FindFrom(es: seq<Expense>, name: Name, k: nat): (r: Option<nat>)
    requires k <= |es|
    ensures r.Some? ==> k <= r.value < |es| && es[r.value].personName == name
    ensures r.Some? ==> forall j :: k <= j < r.value ==> es[j].personName != name
    ensures r.None? <==> forall j :: k <= j < |es| ==> es[j].personName != name
    decreases |es| - k
  {
    if k == |es| then None
    else if es[k].personName == name then Some(k)
    else FindFrom(es, name, k + 1)
  }

  // ---------------------------------------------------------------------------------------------
  // Shares

  /** The sum of the weights of all expenses. */
  function TotalWeight(t: Transaction): real {
    FractionUtil.Sum(Weights(t.expenses))
  }

  /** The part of `amount` that `weight` claims out of `total`: amount × weight / total. */
  function Share(amount: real, weight: real, total: real): real
    requires total > 0.0
  {
    amount * weight / total
  }

  /** Transaction.getPortion: the share of the first expense of `person`, or ParticipantNotFound. */
  function GetPortion(t: Transaction, person: Person): (r: Result<real, TransactionError>)
    ensures r.Ok? <==> IsPersonInvolved(t, person)
  {
    match FindExpense(t.expenses, person.name)
    case None =>
      assert !IsPersonInvolved(t, person);
      Err(ParticipantNotFound)
    case Some(i) =>
      TotalWeightPositive(t.expenses);
      assert t.expenses[i] in t.expenses;
      Ok(Share(t.amount, t.expenses[i].weight, TotalWeight(t)))
  }

  /** The shares of `es`, each weight over `total`, entered name by name (a later entry replaces an earlier one). */
  function PortionMap(es: seq<Expense>, amount: real, total: real): map<Name, real>
    requires total > 0.0
  {
    if es == [] then map[]
    else
      var e := es[|es| - 1];
      PortionMap(es[..|es| - 1], amount, total)[e.personName := Share(amount, e.weight, total)]
  }

  /** Transaction.getAllPortions: every participant's name mapped to their share; empty without participants. */
  function GetAllPortions(t: Transaction): (m: map<Name, real>)
    ensures m.Keys == ParticipantNames(t)
  {
    if t.expenses == [] then map[]
    else
      TotalWeightPositive(t.expenses);
      PortionMapKeys(t.expenses, t.amount, TotalWeight(t));
      PortionMap(t.expenses, t.amount, TotalWeight(t))
  }

  /** The values of `m` listed in the order of the expenses. */
  function ValuesInOrder(m: map<Name, real>, es: seq<Expense>): seq<real>
    requires forall i :: 0 <= i < |es| ==> es[i].personName in m
  {
    seq(|es|, i requires 0 <= i < |es| => m[es[i].personName])
  }

  // ---------------------------------------------------------------------------------------------
  // Sameness and equality

  function ExpenseSet(t: Transaction): set<Expense> {
    set e | e in t.expenses
  }

  /** Field-wise equality, with the expenses compared as sets. */
  predicate SameFields(a: Transaction, b: Transaction) {
    a.amount == b.amount && a.description == b.description && a.payeeName == b.payeeName
    && ExpenseSet(a) == ExpenseSet(b) && a.timestamp == b.timestamp
  }

  /** Transaction.isSameTransaction, with `None` for null. */
  predicate IsSameTransaction(t: Transaction, other: Option<Transaction>) {
    other.Some? && SameFields(t, other.value)
  }

  /** Transaction.equals. */
  predicate Equals(t: Transaction, other: Obj) {
    other.TransactionObj? && SameFields(t, other.transaction)
  }

  // ---------------------------------------------------------------------------------------------
  // Lemmas: weights

  lemma WeightsPrefix(es: seq<Expense>, n: nat)
    requires n <= |es|
    ensures Weights(es[..n]) == Weights(es)[..n]
  {
  }

  /** Every weight is positive, so any nonempty expense set has a positive total. */
  lemma {:induction false} TotalWeightPositive(es: seq<Expense>)
    ensures es != [] ==> FractionUtil.Sum(Weights(es)) > 0.0
    ensures FractionUtil.Sum(Weights(es)) >= 0.0
  {
    if es != [] {
      var n := |es| - 1;
      WeightsPrefix(es, n);
      TotalWeightPositive(es[..n]);
      assert FractionUtil.Sum(Weights(es)) == FractionUtil.Sum(Weights(es[..n])) + es[n].weight;
    }
  }

  // ---------------------------------------------------------------------------------------------
  // Lemmas: the shares add up to the amount

  /** The shares of `es`, in order. */
  function Shares(es: seq<Expense>, amount: real, total: real): (s: seq<real>)
    requires total > 0.0
    ensures |s| == |es|
  {
    seq(|es|, i requires 0 <= i < |es| => Share(amount, es[i].weight, total))
  }

  /** Summing the shares is sharing the summed weights. */
  lemma SumOfShares(es: seq<Expense>, amount: real, total: real)
    requires total > 0.0
    ensures FractionUtil.Sum(Shares(es, amount, total)) == amount * FractionUtil.Sum(Weights(es)) / total
  {
    var k := amount / total;
    var ws, ss := Weights(es), Shares(es, amount, total);
    forall i | 0 <= i < |es| ensures ss[i] == k * ws[i] {
      ShareAsFactor(amount, es[i].weight, total);
    }
    FractionUtil.SumScaled(ws, k, ss);
    ShareAsFactor(amount, FractionUtil.Sum(ws), total);
  }

  /** A share is the weight times the amount per unit of weight. */
  lemma ShareAsFactor(amount: real, w: real, total: real)
    requires total > 0.0
    ensures Share(amount, w, total) == amount / total * w
  {
  }

  /** The exactness guarantee: for a nonempty expense set the shares sum to exactly the amount. */
  lemma SharesSumToAmount(t: Transaction)
    requires t.expenses != []
    ensures TotalWeight(t) > 0.0
    ensures FractionUtil.Sum(Shares(t.expenses, t.amount, TotalWeight(t))) == t.amount
  {
    var es, total := t.expenses, TotalWeight(t);
    TotalWeightPositive(es);
    SumOfShares(es, t.amount, total);
    assert t.amount * total / total == t.amount;
  }

  // ---------------------------------------------------------------------------------------------
  // Lemmas: getAllPortions

  lemma {:induction false} PortionMapKeys(es: seq<Expense>, amount: real, total: real)
    requires total > 0.0
    ensures PortionMap(es, amount, total).Keys == set e | e in es :: e.personName
  {
    if es != [] {
      var n := |es| - 1;
      PortionMapKeys(es[..n], amount, total);
      assert es == es[..n] + [es[n]];
      assert (set e | e in es :: e.personName) == (set e | e in es[..n] :: e.personName) + {es[n].personName};
    }
  }

  /** With one expense per person, each name is mapped to that person's share. */
  lemma {:induction false} PortionMapValues(es: seq<Expense>, amount: real, total: real)
    requires total > 0.0 && DistinctNames(es)
    ensures forall i :: 0 <= i < |es| ==>
      es[i].personName in PortionMap(es, amount, total)
      && PortionMap(es, amount, total)[es[i].personName] == Share(amount, es[i].weight, total)
  {
    if es != [] {
      var n := |es| - 1;
      assert DistinctNames(es[..n]);
      PortionMapValues(es[..n], amount, total);
      forall i | 0 <= i < n
        ensures es[i].personName in PortionMap(es, amount, total)
        ensures PortionMap(es, amount, total)[es[i].personName] == Share(amount, es[i].weight, total)
      {
        assert es[..n][i] == es[i];
        assert es[i].personName != es[n].personName;
      }
    }
  }

  /** getAllPortions has one key per participant, and its value for each is that participant's getPortion. */
  lemma AllPortionsAgree(t: Transaction, person: Person)
    ensures person.name in GetAllPortions(t) <==> IsPersonInvolved(t, person)
    ensures person.name in GetAllPortions(t) ==> GetPortion(t, person) == Ok(GetAllPortions(t)[person.name])
  {
    if IsPersonInvolved(t, person) {
      TotalWeightPositive(t.expenses);
      PortionMapValues(t.expenses, t.amount, TotalWeight(t));
      FirstShare(t, person);
    }
  }

  /** An involved person's portion is the share of their first expense. */
  lemma FirstShare(t: Transaction, person: Person)
    requires IsPersonInvolved(t, person)
    ensures FindExpense(t.expenses, person.name).Some?
    ensures TotalWeight(t) > 0.0
    ensures var i := FindExpense(t.expenses, person.name).value;
      GetPortion(t, person) == Ok(Share(t.amount, t.expenses[i].weight, TotalWeight(t)))
  {
    TotalWeightPositive(t.expenses);
  }

  /** The values of getAllPortions add up to exactly the amount. */
  lemma AllPortionsSumToAmount(t: Transaction)
    requires t.expenses != []
    ensures forall i :: 0 <= i < |t.expenses| ==> t.expenses[i].personName in GetAllPortions(t)
    ensures FractionUtil.Sum(ValuesInOrder(GetAllPortions(t), t.expenses)) == t.amount
  {
    SharesSumToAmount(t);
    var total := TotalWeight(t);
    PortionMapValues(t.expenses, t.amount, total);
    assert ValuesInOrder(GetAllPortions(t), t.expenses) == Shares(t.expenses, t.amount, total);
  }

  /** A single participant takes the whole amount, whatever their weight. */
  lemma SinglePortion(t: Transaction, e: Expense)
    requires t.expenses == [e]
    ensures GetPortion(t, Person(e.personName)) == Ok(t.amount)
    ensures GetAllPortions(t) == map[e.personName := t.amount]
  {
    assert Weights(t.expenses) == [e.weight];
    assert FractionUtil.Sum([e.weight]) == e.weight by { assert [e.weight][..0] == []; }
    assert Share(t.amount, e.weight, e.weight) == t.amount;
    assert t.expenses[..0] == [];
  }

  /** The expense set of TransactionTest: Alice, Bob and Carl with weights in ratio 1:2:3. */
  function OneTwoThree(w: Weight): seq<Expense> {
    [Expense("Alice", w), Expense("Bob", WeightProduct(2.0, w)), Expense("Carl", WeightProduct(3.0, w))]
  }

  lemma OneTwoThreeTotal(t: Transaction, w: Weight)
    requires t.expenses == OneTwoThree(w)
    ensures TotalWeight(t) == 6.0 * w
  {
    var ws := Weights(t.expenses);
    assert ws == [w, 2.0 * w, 3.0 * w];
    assert ws[..2][..1][..0] == [];
    assert FractionUtil.Sum(ws[..2][..1]) == w;
    assert FractionUtil.Sum(ws[..2]) == 3.0 * w;
  }

  lemma SixthShare(amount: real, w: real, k: real)
    requires w > 0.0
    ensures 6.0 * w > 0.0
    ensures Share(amount, k * w, 6.0 * w) == amount * k / 6.0
  {
    assert amount * (k * w) == (amount * k) * w;
  }

  /** The test ledger's split in ratio 1:2:3: a sixth, a third and a half of the amount. */
  lemma OneTwoThreeSplit(t: Transaction, w: Weight)
    requires t.expenses == OneTwoThree(w)
    ensures GetPortion(t, Person("Alice")) == Ok(t.amount / 6.0)
    ensures GetPortion(t, Person("Bob")) == Ok(t.amount / 3.0)
    ensures GetPortion(t, Person("Carl")) == Ok(t.amount / 2.0)
  {
    var es := t.expenses;
    OneTwoThreeTotal(t, w);
    assert es[0].personName == "Alice";
    assert es[1].personName == "Bob" && es[0].personName != "Bob";
    assert es[2].personName == "Carl" && es[0].personName != "Carl" && es[1].personName != "Carl";
    assert IsPersonInvolved(t, Person("Alice")) by { assert es[0] in es; }
    assert IsPersonInvolved(t, Person("Bob")) by { assert es[1] in es; }
    assert IsPersonInvolved(t, Person("Carl")) by { assert es[2] in es; }
    FirstShare(t, Person("Alice"));
    FirstShare(t, Person("Bob"));
    FirstShare(t, Person("Carl"));
    SixthShare(t.amount, w, 1.0);
    SixthShare(t.amount, w, 2.0);
    SixthShare(t.amount, w, 3.0);
  }

  /** getAllPortions of the 1:2:3 ledger. */
  lemma OneTwoThreeAllPortions(t: Transaction, w: Weight)
    requires t.expenses == OneTwoThree(w)
    ensures GetAllPortions(t) == map["Alice" := t.amount / 6.0, "Bob" := t.amount / 3.0, "Carl" := t.amount / 2.0]
  {
    var es := t.expenses;
    OneTwoThreeSplit(t, w);
    var m := GetAllPortions(t);
    AllPortionsAgree(t, Person("Alice"));
    AllPortionsAgree(t, Person("Bob"));
    AllPortionsAgree(t, Person("Carl"));
    assert m.Keys == {"Alice", "Bob", "Carl"} by {
      assert ParticipantNames(t) == {es[0].personName, es[1].personName, es[2].personName};
    }
  }

  /** TransactionTest's figures: 600 splits into 100/200/300, and 1200 into 200/400/600. */
  lemma TestLedgerFigures(t: Transaction, w: Weight)
    requires t.expenses == OneTwoThree(w)
    ensures t.amount == 600.0 ==> GetAllPortions(t) == map["Alice" := 100.0, "Bob" := 200.0, "Carl" := 300.0]
    ensures t.amount == 1200.0 ==> GetAllPortions(t) == map["Alice" := 200.0, "Bob" := 400.0, "Carl" := 600.0]
  {
    OneTwoThreeAllPortions(t, w);
  }

  // ---------------------------------------------------------------------------------------------
  // Lemmas: proportionality and order independence

  /** Every weight multiplied by the same positive factor. */
  function ScaleWeights(es: ExpenseList, c: Weight): (r: ExpenseList)
    ensures |r| == |es|
    ensures forall i :: 0 <= i < |es| ==> r[i].personName == es[i].personName
  {
    var r := seq(|es|, i requires 0 <= i < |es| => Expense(es[i].personName, WeightProduct(es[i].weight, c)));
    assert DistinctNames(r);
    r
  }

  /** The product of two weights, which is again a weight. */
  function WeightProduct(a: Weight, b: Weight): Weight {
    ProductPositive(a, b);
    a * b
  }

  lemma ProductPositive(a: real, b: real)
    requires a > 0.0 && b > 0.0
    ensures a * b > 0.0
  {
  }

  /** The first match depends only on the names, position by position. */
  lemma FindByNames(es: seq<Expense>, fs: seq<Expense>, name: Name)
    requires |es| == |fs| && forall i :: 0 <= i < |es| ==> es[i].personName == fs[i].personName
    ensures FindExpense(es, name) == FindExpense(fs, name)
  {
  }

  lemma ScaledTotal(es: ExpenseList, c: Weight)
    ensures FractionUtil.Sum(Weights(ScaleWeights(es, c))) == c * FractionUtil.Sum(Weights(es))
  {
    var ws, vs := Weights(es), Weights(ScaleWeights(es, c));
    forall i | 0 <= i < |ws| ensures vs[i] == c * ws[i] {
      ScaledAt(es, c, i);
    }
    FractionUtil.SumScaled(ws, c, vs);
  }

  /** Scaling all weights by the same positive factor leaves every share unchanged. */
  lemma ProportionalWeights(t: Transaction, c: Weight, person: Person)
    ensures GetPortion(t.(expenses := ScaleWeights(t.expenses, c)), person) == GetPortion(t, person)
  {
    var u := t.(expenses := ScaleWeights(t.expenses, c));
    FindByNames(t.expenses, u.expenses, person.name);
    if IsPersonInvolved(t, person) {
      ScaledPortion(t, c, person);
    } else {
      assert !IsPersonInvolved(u, person) by {
        if IsPersonInvolved(u, person) {
          FirstShare(u, person);
          assert false;
        }
      }
    }
  }

  lemma ScaledPortion(t: Transaction, c: Weight, person: Person)
    requires IsPersonInvolved(t, person)
    ensures GetPortion(t.(expenses := ScaleWeights(t.expenses, c)), person) == GetPortion(t, person)
  {
    var u := t.(expenses := ScaleWeights(t.expenses, c));
    FirstShare(t, person);
    var i := FindExpense(t.expenses, person.name).value;
    assert FindExpense(u.expenses, person.name) == Some(i) by { FindByNames(t.expenses, u.expenses, person.name); }
    assert IsPersonInvolved(u, person) by { assert u.expenses[i] in u.expenses; }
    FirstShare(u, person);
    ScaledShareAt(t.expenses, c, t.amount, i);
  }

  /** The share at one position is the same before and after scaling every weight. */
  lemma ScaledShareAt(es: ExpenseList, c: Weight, amount: real, i: nat)
    requires i < |es|
    ensures FractionUtil.Sum(Weights(es)) > 0.0
    ensures FractionUtil.Sum(Weights(ScaleWeights(es, c))) > 0.0
    ensures Share(amount, ScaleWeights(es, c)[i].weight, FractionUtil.Sum(Weights(ScaleWeights(es, c))))
      == Share(amount, es[i].weight, FractionUtil.Sum(Weights(es)))
  {
    TotalWeightPositive(es);
    ScaledAt(es, c, i);
    ScaledTotal(es, c);
    ScaledShare(amount, es[i].weight, c, FractionUtil.Sum(Weights(es)));
  }

  lemma ScaledAt(es: ExpenseList, c: Weight, i: nat)
    requires i < |es|
    ensures ScaleWeights(es, c)[i].weight == es[i].weight * c
  {
  }

  lemma ScaledShare(amount: real, w: real, c: real, total: real)
    requires total > 0.0 && c > 0.0
    ensures c * total > 0.0
    ensures Share(amount, w * c, c * total) == Share(amount, w, total)
  {
    assert amount * (w * c) == (amount * w) * c;
  }

  lemma WeightsConcat(a: seq<Expense>, b: seq<Expense>)
    ensures Weights(a + b) == Weights(a) + Weights(b)
  {
  }

  lemma {:induction false} WeightsPermutation(es: seq<Expense>, fs: seq<Expense>)
    requires multiset(es) == multiset(fs)
    ensures multiset(Weights(es)) == multiset(Weights(fs))
    decreases |es|
  {
    if es == [] {
      assert fs == [];
    } else {
      var n := |es| - 1;
      var e := es[n];
      var i := FractionUtil.MatchLast(es, fs);
      WeightsPermutation(es[..n], fs[..i] + fs[i + 1..]);
      assert es == es[..n] + [e];
      WeightsConcat(es[..n], [e]);
      assert fs == fs[..i] + [e] + fs[i + 1..];
      WeightsConcat(fs[..i] + [e], fs[i + 1..]);
      WeightsConcat(fs[..i], [e]);
      WeightsConcat(fs[..i], fs[i + 1..]);
    }
  }

  /** Reordering the expense set changes no total. */
  lemma PermutedTotal(t: Transaction, u: Transaction)
    requires multiset(t.expenses) == multiset(u.expenses)
    ensures TotalWeight(t) == TotalWeight(u)
  {
    WeightsPermutation(t.expenses, u.expenses);
    FractionUtil.SumPermutation(Weights(t.expenses), Weights(u.expenses));
  }

  /** With one expense per person, only names and weights matter: the first match is the only one. */
  lemma OnlyMatch(es: seq<Expense>, i: nat, j: nat)
    requires DistinctNames(es) && i < |es| && j < |es| && es[i].personName == es[j].personName
    ensures i == j
  {
    if i < j { assert false; } else if j < i { assert false; }
  }

  /** The iteration order of the expense set does not matter: reordered, every share is the same. */
  lemma PermutedPortions(t: Transaction, u: Transaction, person: Person)
    requires multiset(t.expenses) == multiset(u.expenses) && t.amount == u.amount
    ensures GetPortion(t, person) == GetPortion(u, person)
  {
    assert forall e :: e in t.expenses <==> e in u.expenses by {
      forall e ensures e in t.expenses <==> e in u.expenses {
        assert e in t.expenses <==> e in multiset(t.expenses);
        assert e in u.expenses <==> e in multiset(u.expenses);
      }
    }
    if IsPersonInvolved(t, person) {
      FirstShare(t, person);
      FirstShare(u, person);
      PermutedTotal(t, u);
      var i := FindExpense(t.expenses, person.name).value;
      var j := FindExpense(u.expenses, person.name).value;
      assert t.expenses[i] in u.expenses;
      var k :| 0 <= k < |u.expenses| && u.expenses[k] == t.expenses[i];
      OnlyMatch(u.expenses, j, k);
    }
  }

  // ---------------------------------------------------------------------------------------------
  // Lemmas: involvement, sameness and equality

  /** A person is involved exactly when getAllPortions has an entry for their name. */
  lemma InvolvedIffParticipant(t: Transaction, person: Person)
    ensures IsPersonInvolved(t, person) <==> person.name in ParticipantNames(t)
    ensures IsPersonInvolved(t, person) <==> person.name in GetAllPortions(t)
  {
  }

  /** isSameTransaction holds of the transaction itself, never of null, and breaks when any one field changes. */
  lemma SameTransactionFields(t: Transaction, u: Transaction)
    ensures IsSameTransaction(t, Some(t)) && !IsSameTransaction(t, None)
    ensures IsSameTransaction(t, Some(t.(amount := u.amount))) <==> u.amount == t.amount
    ensures IsSameTransaction(t, Some(t.(description := u.description))) <==> u.description == t.description
    ensures IsSameTransaction(t, Some(t.(payeeName := u.payeeName))) <==> u.payeeName == t.payeeName
    ensures IsSameTransaction(t, Some(t.(expenses := u.expenses))) <==> ExpenseSet(u) == ExpenseSet(t)
    ensures IsSameTransaction(t, Some(t.(timestamp := u.timestamp))) <==> u.timestamp == t.timestamp
  {
  }

  /** Sameness is an equivalence relation. */
  lemma SameTransactionEquivalence(a: Transaction, b: Transaction, c: Transaction)
    ensures IsSameTransaction(a, Some(b)) ==> IsSameTransaction(b, Some(a))
    ensures IsSameTransaction(a, Some(b)) && IsSameTransaction(b, Some(c)) ==> IsSameTransaction(a, Some(c))
  {
  }

  /** The expenses are compared as a set: listing them in another order keeps the transaction the same. */
  lemma ReorderedSame(t: Transaction, es: ExpenseList)
    requires multiset(es) == multiset(t.expenses)
    ensures IsSameTransaction(t, Some(t.(expenses := es)))
  {
    forall e ensures e in es <==> e in t.expenses {
      assert e in es <==> e in multiset(es);
      assert e in t.expenses <==> e in multiset(t.expenses);
    }
  }

  /** Without repeated names no expense occurs twice: each one is counted once or not at all. */
  lemma {:induction false} DistinctCounts(es: seq<Expense>, x: Expense)
    requires DistinctNames(es)
    ensures multiset(es)[x] == if x in es then 1 else 0
  {
    if es != [] {
      var n := |es| - 1;
      var init := es[..n];
      assert DistinctNames(init);
      DistinctCounts(init, x);
      assert es == init + [es[n]];
      assert es[n] !in init by {
        forall i | 0 <= i < n ensures init[i] != es[n] {
          assert es[i].personName != es[n].personName;
        }
      }
    }
  }

  /** Two expense sets with the same members list them in orders that are permutations of each other. */
  lemma SameSetPermuted(es: ExpenseList, fs: ExpenseList)
    requires (set e | e in es) == (set e | e in fs)
    ensures multiset(es) == multiset(fs)
  {
    forall x ensures multiset(es)[x] == multiset(fs)[x] {
      DistinctCounts(es, x);
      DistinctCounts(fs, x);
      var inEs, inFs := set e | e in es, set e | e in fs;
      assert x in es ==> x in inEs && x in fs;
      assert x in fs ==> x in inFs && x in es;
    }
    assert multiset(es) == multiset(fs);
  }

  /** Transactions that are the same transaction give every person the same portion and the same portion map. */
  lemma SameTransactionSamePortions(t: Transaction, u: Transaction, person: Person)
    requires IsSameTransaction(t, Some(u))
    ensures GetPortion(t, person) == GetPortion(u, person)
    ensures GetAllPortions(t) == GetAllPortions(u)
  {
    SameSetPermuted(t.expenses, u.expenses);
    PermutedPortions(t, u, person);
    var m, m' := GetAllPortions(t), GetAllPortions(u);
    assert m.Keys == m'.Keys by {
      assert ParticipantNames(t) == ParticipantNames(u) by {
        assert forall e :: e in t.expenses <==> e in u.expenses by {
          forall e ensures e in t.expenses <==> e in u.expenses {
            assert e in t.expenses <==> e in multiset(t.expenses);
            assert e in u.expenses <==> e in multiset(u.expenses);
          }
        }
      }
    }
    forall name | name in m ensures m[name] == m'[name] {
      var p := Person(name);
      AllPortionsAgree(t, p);
      AllPortionsAgree(u, p);
      PermutedPortions(t, u, p);
    }
  }

  /** equals agrees with isSameTransaction on transactions and is false for null and for other classes. */
  lemma EqualsAgreesWithSame(t: Transaction, u: Transaction)
    ensures Equals(t, TransactionObj(u)) <==> IsSameTransaction(t, Some(u))
    ensures !Equals(t, NullObj) && !Equals(t, OtherObj)
    ensures Equals(t, TransactionObj(t))
  {
  }
}

=== FILE: unique_transaction_list.dfy ===
/**
 * The ledger's list of transactions (UniqueTransactionList): transactions in insertion order,
 * no two of them the same transaction. Each mutating operation returns the new contents, or an
 * error and no new contents; a failed operation leaves the list as it was.
 */
module UniqueTransactionList {
  import opened Results
  import opened Transactions

  datatype ListError = DuplicateTransaction | TransactionNotFound

  /** Java's `Object` as the argument of UniqueTransactionList.equals. */
  datatype ListObj = ListObj(transactions: seq<Transaction>) | OtherListObj

  /** The list invariant: no two elements are the same transaction. */
  predicate Unique(list: seq<Transaction>) {
    forall i, j :: 0 <= i < j < |list| ==> !SameFields(list[i], list[j])
  }

  /** contains: some element is the same transaction as `t`. */
  predicate Contains(list: seq<Transaction>, t: Transaction) {
    exists i :: 0 <= i < |list| && SameFields(list[i], t)
  }

  /** The contents after an operation: the new contents on success, the old ones on failure. */
  function Resulting(list: seq<Transaction>, r: Result<seq<Transaction>, ListError>): seq<Transaction> {
    if r.Ok? then r.value else list
  }

  /** The position of the first element that is the same transaction as `t`, if any. */
  function IndexOf(list: seq<Transaction>, t: Transaction): (r: Option<nat>)
    ensures r.Some? ==> r.value < |list| && SameFields(list[r.value], t)
    ensures r.Some? ==> forall j :: 0 <= j < r.value ==> !SameFields(list[j], t)
    ensures r.None? <==> !Contains(list, t)
  {
    IndexFrom(list, t, 0)
  }

  /** The position of the first element at or after `k` that is the same transaction as `t`, if any. */
  function IndexFrom(list: seq<Transaction>, t: Transaction, k: nat): (r: Option<nat>)
    requires k <= |list|
    ensures r.Some? ==> k <= r.value < |list| && SameFields(list[r.value], t)
    ensures r.Some? ==> forall j :: k <= j < r.value ==> !SameFields(list[j], t)
    ensures r.None? <==> forall j :: k <= j < |list| ==> !SameFields(list[j], t)
    decreases |list| - k
  {
    if k == |list| then None
    else if SameFields(list[k], t) then Some(k)
    else IndexFrom(list, t, k + 1)
  }

  /** add: append `t` unless the same transaction is already there. */
  function Add(list: seq<Transaction>, t: Transaction): (r: Result<seq<Transaction>, ListError>)
    ensures r.Err? <==> Contains(list, t)
    ensures r.Err? ==> r.error == DuplicateTransaction
    ensures r.Ok? ==> |r.value| == |list| + 1 && r.value[..|list|] == list && r.value[|list|] == t
    ensures r.Ok? && Unique(list) ==> Unique(r.value)
  {
    if Contains(list, t) then Err(DuplicateTransaction) else Ok(list + [t])
  }

  /**
   * setTransaction: put `edited` in the slot of `target`. Fails when `target` is not in the
   * list, or when `edited` is a different transaction that is already in it.
   */
  function SetTransaction(list: seq<Transaction>, target: Transaction, edited: Transaction)
    : (r: Result<seq<Transaction>, ListError>)
    ensures r == Err(TransactionNotFound) <==> !Contains(list, target)
    ensures r == Err(DuplicateTransaction) <==>
      Contains(list, target) && !SameFields(target, edited) && Contains(list, edited)
    ensures r.Ok? ==> |r.value| == |list|
    ensures r.Ok? ==> exists i :: 0 <= i < |list| && SameFields(list[i], target) && r.value == list[i := edited]
    ensures r.Ok? && Unique(list) ==> Unique(r.value)
  {
    match IndexOf(list, target)
    case None => Err(TransactionNotFound)
    case Some(i) =>
      if !SameFields(target, edited) && Contains(list, edited) then Err(DuplicateTransaction)
      else
        assert Unique(list) ==> Unique(list[i := edited]) by {
          if Unique(list) {
            forall j | 0 <= j < |list| && j != i ensures !SameFields(list[j], edited) {
              if SameFields(target, edited) {
                assert !SameFields(list[j], list[i]);
              }
            }
          }
        }
        Ok(list[i := edited])
  }

  /** remove: delete the first element that is the same transaction as `t`. */
  function Remove(list: seq<Transaction>, t: Transaction): (r: Result<seq<Transaction>, ListError>)
    ensures r.Err? <==> !Contains(list, t)
    ensures r.Err? ==> r.error == TransactionNotFound
    ensures r.Ok? ==> |r.value| == |list| - 1
    ensures r.Ok? ==> exists i :: 0 <= i < |list| && SameFields(list[i], t) && r.value == Delete(list, i)
  {
    match IndexOf(list, t)
    case None => Err(TransactionNotFound)
    case Some(i) => Ok(Delete(list, i))
  }

  /** The list without its element at position `i`. */
  function Delete(list: seq<Transaction>, i: nat): (r: seq<Transaction>)
    requires i < |list|
    ensures |r| == |list| - 1
    ensures forall j :: 0 <= j < i ==> r[j] == list[j]
    ensures forall j :: i <= j < |r| ==> r[j] == list[j + 1]
  {
    list[..i] + list[i + 1..]
  }

  /** setTransactions(List): replace the whole contents, unless the new list repeats a transaction. */
  function SetTransactions(list: seq<Transaction>, replacement: seq<Transaction>)
    : (r: Result<seq<Transaction>, ListError>)
    ensures r.Ok? <==> Unique(replacement)
    ensures r.Err? ==> r.error == DuplicateTransaction
    ensures r.Ok? ==> r.value == replacement
  {
    if Unique(replacement) then Ok(replacement) else Err(DuplicateTransaction)
  }

  /**
   * setTransactions(UniqueTransactionList): replace the whole contents by those of another list,
   * which keeps the invariant already.
   */
  function ReplaceContents(list: seq<Transaction>, replacement: seq<Transaction>): (r: seq<Transaction>)
    requires Unique(replacement)
    ensures Unique(r) && |r| == |replacement|
  {
    replacement
  }

  /** UniqueTransactionList.equals: another list whose elements are equal, position by position. */
  predicate ListEquals(list: seq<Transaction>, other: ListObj) {
    other.ListObj? && |list| == |other.transactions|
    && forall i :: 0 <= i < |list| ==> Equals(list[i], TransactionObj(other.transactions[i]))
  }

  // ---------------------------------------------------------------------------------------------
  // Lemmas

  /** After add(t), the list contains t, whether t was appended or already there. */
  lemma AddThenContains(list: seq<Transaction>, t: Transaction)
    ensures Contains(Resulting(list, Add(list, t)), t)
  {
    var r := Add(list, t);
    if r.Ok? {
      assert r.value[|list|] == t;
    }
  }

  /** Adding to a list keeps everything it contained. */
  lemma AddKeeps(list: seq<Transaction>, t: Transaction, u: Transaction)
    requires Contains(list, u)
    ensures Contains(Resulting(list, Add(list, t)), u)
  {
    var i :| 0 <= i < |list| && SameFields(list[i], u);
    var r := Resulting(list, Add(list, t));
    assert r[i] == list[i];
  }

  /** setTransaction(t, t) on a list containing t leaves a list equal to the old one. */
  lemma SetSameKeepsList(list: seq<Transaction>, t: Transaction)
    requires Contains(list, t)
    ensures SetTransaction(list, t, t).Ok?
    ensures ListEquals(SetTransaction(list, t, t).value, ListObj(list))
  {
    var r := SetTransaction(list, t, t).value;
    var i :| 0 <= i < |list| && SameFields(list[i], t) && r == list[i := t];
    forall j | 0 <= j < |r| ensures Equals(r[j], TransactionObj(list[j])) {
      if j == i {
        SameTransactionEquivalence(list[i], t, t);
      }
    }
  }

  /**
   * setTransaction(a, b) with a in the list and b not another element: b takes the place of
   * the first element that is a, and every other element stays where it was.
   */
  lemma SetReplacesSlot(list: seq<Transaction>, a: Transaction, b: Transaction)
    requires Contains(list, a)
    requires SameFields(a, b) || !Contains(list, b)
    ensures IndexOf(list, a).Some?
    ensures var i := IndexOf(list, a).value;
      SetTransaction(list, a, b).Ok?
      && |SetTransaction(list, a, b).value| == |list|
      && SetTransaction(list, a, b).value[i] == b
      && forall j :: 0 <= j < |list| && j != i ==> SetTransaction(list, a, b).value[j] == list[j]
  {
  }

  /** In a list without repeats, remove(t) deletes the only element that is t and keeps the rest. */
  lemma RemoveDeletes(list: seq<Transaction>, t: Transaction)
    requires Unique(list) && Contains(list, t)
    ensures Remove(list, t).Ok?
    ensures !Contains(Remove(list, t).value, t)
    ensures Unique(Remove(list, t).value)
    ensures forall u :: Contains(list, u) && !SameFields(u, t) ==> Contains(Remove(list, t).value, u)
  {
    var i := IndexOf(list, t).value;
    var r := Delete(list, i);
    assert !Contains(r, t) by {
      forall j | 0 <= j < |r| ensures !SameFields(r[j], t) {
        if j < i {
          assert !SameFields(list[j], list[i]);
        } else {
          assert !SameFields(list[i], list[j + 1]);
        }
      }
    }
    assert Unique(r) by {
      forall j, k | 0 <= j < k < |r| ensures !SameFields(r[j], r[k]) {
        var j', k' := if j < i then j else j + 1, if k < i then k else k + 1;
        assert r[j] == list[j'] && r[k] == list[k'];
      }
    }
    forall u | Contains(list, u) && !SameFields(u, t) ensures Contains(r, u) {
      var k :| 0 <= k < |list| && SameFields(list[k], u);
      if k < i {
        assert r[k] == list[k];
      } else if k > i {
        assert r[k - 1] == list[k];
      }
    }
  }

  /** Contains and ListEquals agree: equal lists contain the same transactions. */
  lemma EqualListsContainAlike(a: seq<Transaction>, b: seq<Transaction>, t: Transaction)
    requires ListEquals(a, ListObj(b))
    ensures Contains(a, t) <==> Contains(b, t)
  {
    if Contains(a, t) {
      var i :| 0 <= i < |a| && SameFields(a[i], t);
      assert SameFields(b[i], t);
    }
    if Contains(b, t) {
      var i :| 0 <= i < |b| && SameFields(b[i], t);
      assert SameFields(a[i], t);
    }
  }

  /** List equality is reflexive and symmetric, and false for an object that is not a list. */
  lemma ListEqualsEquivalence(a: seq<Transaction>, b: seq<Transaction>)
    ensures ListEquals(a, ListObj(a))
    ensures ListEquals(a, ListObj(b)) ==> ListEquals(b, ListObj(a))
    ensures !ListEquals(a, OtherListObj)
  {
  }

  /** Both forms of setTransactions give a list equal to the replacement, whatever was there before. */
  lemma SetTransactionsReplaces(old1: seq<Transaction>, old2: seq<Transaction>, replacement: seq<Transaction>)
    requires Unique(replacement)
    ensures SetTransactions(old1, replacement) == SetTransactions(old2, replacement)
    ensures SetTransactions(old1, replacement) == Ok(ReplaceContents(old2, replacement))
    ensures ListEquals(ReplaceContents(old1, replacement), ListObj(replacement))
  {
  }

  // ---------------------------------------------------------------------------------------------
  // The scenarios of the list's unit tests, for any two transactions that are not the same

  /** Adding to the empty list succeeds and the result contains the transaction. */
  lemma AddToEmpty(a: Transaction)
    ensures Add([], a) == Ok([a])
    ensures Contains([a], a)
  {
    assert SameFields([a][0], a);
  }

  /** setTransaction of a transaction that is not in the list fails. */
  lemma SetMissingFails(a: Transaction, b: Transaction)
    requires !SameFields(a, b)
    ensures SetTransaction([a], b, a) == Err(TransactionNotFound)
  {
    assert !Contains([a], b) by { SameTransactionEquivalence(a, b, b); }
  }

  /** setTransaction(a, a) on [a] gives a list equal to [a]; setTransaction(a, b) gives one equal to [b]. */
  lemma SetOnSingleton(a: Transaction, b: Transaction)
    requires !SameFields(a, b)
    ensures SetTransaction([a], a, a).Ok? && ListEquals(SetTransaction([a], a, a).value, ListObj([a]))
    ensures SetTransaction([a], a, b).Ok? && ListEquals(SetTransaction([a], a, b).value, ListObj([b]))
  {
    AddToEmpty(a);
    SetSameKeepsList([a], a);
    assert !Contains([a], b) by { SameTransactionEquivalence(b, a, a); }
    SetReplacesSlot([a], a, b);
  }

  /** remove fails on the empty list and empties [a]. */
  lemma RemoveOnSingleton(a: Transaction)
    ensures Remove([], a) == Err(TransactionNotFound)
    ensures Remove([a], a) == Ok([])
  {
    AddToEmpty(a);
  }

  /** Replacing [a] by [b], as another list or as a plain list, gives a list equal to [b]. */
  lemma ReplaceSingleton(a: Transaction, b: Transaction)
    ensures Unique([b])
    ensures SetTransactions([a], [b]) == Ok([b])
    ensures ListEquals(ReplaceContents([a], [b]), ListObj([b]))
  {
  }
}
